=== FILE: README.md ===
# Threes game engine in Dafny

This project models the game engine `ThreesGame` of `maincode.py`, a
tile-merging puzzle over a Fibonacci-like vocabulary
`1, 2, 3, 5, …, 1597, 2584`. The model covers:

- `stack_col`, which compacts a line so that its empty cells trail;
- `combine_col`, one left-to-right merge pass over a line;
- `move_to_direction`, which reduces the four directions to the line
  routines by reversing and transposing;
- the state machine `__init__`, `move`, `initialize`, `add_tile`,
  `game_won` and `valid_moves`.

Lines are `seq<int>`. Grids are `seq<seq<int>>`, indexed `grid[col][row]`
as in the source.

The modules follow the structure of the program:

- `Vocabulary` holds the class-level list `numbers` and the pair test of
  `combine_col`.
- `Sums` holds sums of integer sequences, used for the conservation
  properties.
- `Lines` models `stack_col`, `combine_col` and the per-line work of
  `move_to_direction`: stack, combine, stack, optionally on the reversed
  line.
- `Grids` models `move_to_direction` on square grids.
- `Game` models the instance state and its transitions.
- `Play` proves that a game built by the constructor never meets the
  lookup failure for a caller that stops moving at its first `Won` or
  `Lost`. Until then every tile is in bound: below the winning tile, or a
  2 when the winning tile is 1. The UI's event loop is not such a caller:
  its handlers only clear `running` (maincode.py:348-375), so the rest of
  the current batch of key events still reaches `move`. The engine
  accepts moves after a win, and such a move can leave the bound.
- `Options` holds the optional value used wherever the program raises or
  finds nothing.

Points where the code behaves differently from what a reader might expect:

- **The score is reassigned, not summed.** `move_to_direction` sets the
  score once per line, so the score of a move is the merge score of the
  last line processed.
- **Merges use the full list.** `combine_col` looks tiles up in the full
  seventeen-entry list `numbers`, not in the per-game prefix.
- **A tile outside the list crashes.** The lookup raises ValueError for
  such a tile. The model makes that an explicit `None`, and the state
  machine reports it as the outcome `Fault`.
- **Exceptions become outcomes.** `GameWonException` becomes `Won` and
  `GameOverException` becomes `Lost`. A move that leaves the grid alone
  reports `Unchanged`; a normal tile placement reports `Continue(tile)`.
- **Randomness becomes parameters.** `add_tile`'s `random.choice` over the
  list of empty cells becomes a parameter `pick`; the cell taken is
  `empties[pick % |empties|]`. The draw `random.uniform(0, 1) < 0.3`
  becomes a boolean `two`.
- **The score is updated only on normal return.** `move` updates the
  score, `latest_score` and `latest_tile` only when `add_tile` returns
  normally.
- **`move` never consults `finished`.**
- **The win check comes before the loss check.**
- **The no-empty-cell loss leaves `finished` alone.** When `add_tile`
  finds no empty cell it raises without setting `finished`.
- **Construction follows Python slicing.** `__init__` clamps the
  vocabulary length to seventeen and then slices with Python semantics, so
  a negative length counts from the end. An empty slice makes
  `numbers[-1]` raise IndexError; the model then produces no game.

Dafny sequences are values. The copies made by `copy_grid` are therefore
implicit, and a move can never change the grid it was given.
`grids_are_equal` is sequence equality.

## Model

| member | source | states |
|---|---|---|
| `Vocabulary.NumbersStrictlyIncrease` | maincode.py:30 | the vocabulary is strictly increasing and positive, so `numbers.index` finds each tile at one position |
| `Vocabulary.FibonacciClosure` | maincode.py:30 | each vocabulary entry from the third on is the sum of the two before it |
| `Vocabulary.IndexOfFindsPosition` | maincode.py:163 | the lookup returns the position of the tile in the seventeen-entry list, and fails exactly for values not in it |
| `Vocabulary.PairRuleOf` | maincode.py:160-172 | a pair with an empty cell is skipped; the lookup fails exactly when a non-empty cell holds a value outside the vocabulary; a merge writes the sum of the pair |
| `Vocabulary.OnesMerge` | maincode.py:165-168 | two 1s merge into 2 |
| `Vocabulary.ConsecutiveTilesMerge` | maincode.py:169-172 | two tiles at neighbouring vocabulary positions merge, in either order, into their sum |
| `Vocabulary.MergingTilesAreConsecutive` | maincode.py:163-172 | conversely, only two 1s or two tiles at neighbouring positions merge |
| `Vocabulary.EqualTilesMergeOnlyAsOnes` | maincode.py:165-172 | equal tiles other than 1 never merge |
| `Vocabulary.MergeOfSmallTiles` | maincode.py:169-170 | a merge of tiles other than the last entry produces the vocabulary entry after the larger of the two |
| `Vocabulary.LastEntriesMergeOutside` | maincode.py:169-170 | 1597 and 2584 merge into 4181, which is not in the vocabulary |
| `Lines.StackIsFilter` | maincode.py:141-151 | stacking returns the occupied cells in their original order followed by as many zeros as the line had |
| `Lines.StackPermutes` | maincode.py:141-151 | stacking only reorders the cells (same multiset) |
| `Lines.StackKeeps` | maincode.py:141-151 | stacking keeps the length, the number of empty cells and the sum |
| `Lines.StackTrails` | maincode.py:141-151 | after stacking no empty cell precedes an occupied one |
| `Lines.StackFixedPoints` | maincode.py:141-151 | stacking leaves a line alone exactly when its zeros already trail; it is idempotent and returns a one-cell line unchanged |
| `Lines.Reverse` | maincode.py:190 | `line[::-1]` puts cell `k` at position `len - 1 - k` |
| `Lines.ReverseInvolution` | maincode.py:190-192 | reversing twice gives the line back |
| `Lines.ReverseKeeps` | maincode.py:190-192 | reversal keeps the number of empty cells, the sum and non-negativity |
| `Lines.CombineKeepsSum` | maincode.py:158-172 | the merge pass keeps the sum of the line |
| `Lines.CombineScoreIsWrittenSum` | maincode.py:156-174 | the score of the pass is the sum of the values its merges wrote, hence never negative |
| `Lines.CombineAddsZeros` | maincode.py:158-172 | a pass that changes the line adds at least one empty cell |
| `Lines.CombineOfKeptPairs` | maincode.py:158-172 | a pass that meets no merging pair returns the line unchanged with score 0 |
| `Lines.UnchangedCombineKeptPairs` | maincode.py:158-172 | a pass that returns the line unchanged met no merging pair |
| `Lines.CombineSucceedsOnTiles` | maincode.py:163 | on a line of vocabulary tiles the lookups never fail |
| `Lines.CombineStaysInVocabulary` | maincode.py:163-172 | a pass over tiles other than the last entry writes vocabulary tiles only |
| `Lines.CombineKeepsNonNegative` | maincode.py:158-172 | a pass over non-negative cells writes non-negative cells |
| `Lines.CombineSummary` | maincode.py:154-174 | one `combine_col` call keeps length and sum, scores the merged values, and leaves the line alone exactly when no pair merges; on a line without negative cells the score lies between 0 and the line sum |
| `Lines.CombineDoesNotCascade` | maincode.py:158-167 | merges do not cascade: `[1, 1, 1, 0]` gives `[2, 0, 1, 0]` with score 2 |
| `Lines.SlideDoesNotCascade` | maincode.py:184-186 | restacking after the pass gives `[2, 1, 0, 0]` for `[1, 1, 1, 0]` |
| `Lines.SlideKeepsSum` | maincode.py:184-186 | stack-combine-stack keeps the sum and never removes an empty cell |
| `Lines.SlideScoreBounds` | maincode.py:184-186 | the score of one line is between 0 and the line sum |
| `Lines.SlideChangeLeavesEmptyCell` | maincode.py:184-186 | a slide that changes the line leaves an empty cell in it |
| `Lines.UnchangedSlideIsSettled` | maincode.py:184-186 | a slide that leaves the line alone met a stacked line with no merging pair |
| `Lines.SettledSlides` | maincode.py:184-186 | a stacked line with no merging pair slides to itself with score 0 |
| `Lines.MoveLineKeepsSum` | maincode.py:184-192 | moving one line, in either orientation, keeps its sum and never removes an empty cell |
| `Lines.MoveLineScoreBounds` | maincode.py:184-192 | the score of one line move is between 0 and the line sum |
| `Lines.MoveLineChangeLeavesEmptyCell` | maincode.py:184-192 | a line move that changes the line leaves an empty cell in it |
| `Lines.MoveLineUnchangedIff` | maincode.py:184-192 | a line move leaves the line alone, scoring 0, exactly when the oriented line is stacked with no merging pair |
| `Lines.MoveLineSucceedsOnTiles` | maincode.py:184-192 | a line move over vocabulary tiles never fails |
| `Lines.MoveLineStaysInVocabulary` | maincode.py:184-192 | a line move over tiles other than the last entry produces vocabulary tiles only |
| `Grids.TransposeInvolution` | maincode.py:194-204 | transposing a square grid twice gives it back |
| `Grids.GridSumTranspose` | maincode.py:194-204 | transposition keeps the sum of all cells |
| `Grids.MoveLinesLinewise` | maincode.py:183-186 | the loop over lines fails exactly when some line fails, returns each line's result, and keeps the last line's score |
| `Grids.MoveGridByLines` | maincode.py:178-206 | every direction moves each column (Up, Down) or row (Left, Right) independently; it fails exactly when some line does, and its score is the last line's score |
| `Grids.MoveGridKeepsSum` | maincode.py:178-206 | every move keeps the sum of all cells |
| `Grids.MoveGridScoreNonNegative` | maincode.py:178-206 | the score of a move is never negative |
| `Grids.MoveGridChangeLeavesEmptyCell` | maincode.py:178-206 | a move that changes the grid leaves an empty cell |
| `Grids.MoveGridOnTiles` | maincode.py:178-206 | on vocabulary tiles a move never fails; on tiles other than the last entry it produces vocabulary tiles only |
| `Grids.MoveGridUnchangedIff` | maincode.py:178-206 | a move leaves the grid alone exactly when every line it moves is stacked with no merging pair, and then scores 0 |
| `Grids.ScoreOfLastLineOnly` | maincode.py:179-186 | the score is reassigned per line: moving `[[1, 1], [0, 0]]` up merges the 1s but reports score 0 |
| `Grids.HorizontalIsTransposedVertical` | maincode.py:182-204 | Left and Right on the transposed grid are Up and Down, transposed |
| `Grids.VerticalIsTransposedHorizontal` | maincode.py:182-204 | Up and Down on the transposed grid are Left and Right, transposed |
| `Game.SlicePrefix` | maincode.py:39 | Python's `numbers[:k]` is a prefix whose length is `k` clamped to the list, counting from the end for negative `k` |
| `Game.EmptyGrid` | maincode.py:137-138 | `make_new_grid` gives an `n` by `n` grid of zeros |
| `Game.NewGameSpec` | maincode.py:32-47 | construction succeeds exactly when the clamped slice is non-empty; the game starts on an empty grid with score 0, not finished, and its winning tile is the last entry of the slice |
| `Game.EmptyCellsSpec` | maincode.py:70-76 | the list of empty cells holds exactly the empty cells and is empty exactly when the grid has none |
| `Game.EmptyCellsInOrder` | maincode.py:71-74 | the list follows the column-major order of the loops, so no cell occurs twice |
| `Game.Chosen` | maincode.py:80 | the chosen cell lies in the grid and is empty |
| `Game.ChoiceCoversEmptyCells` | maincode.py:79-80 | every empty cell can be chosen, and only empty cells are |
| `Game.GridContainsIff` | maincode.py:98-104 | `game_won` holds exactly when some cell holds the winning tile |
| `Game.ValidMovesFromSpec` | maincode.py:112-117 | the direction loop answers true only when some direction changes the grid, false exactly when every direction leaves it alone, and always answers when no direction fails |
| `Game.ValidMovesIff` | maincode.py:107-117 | `valid_moves` answers true only when some direction changes the grid, and false exactly when every direction leaves it alone |
| `Game.ValidMovesOnTiles` | maincode.py:107-117 | on vocabulary tiles `valid_moves` always answers, and answers true exactly when some direction changes the grid |
| `Game.AddTilePlacesOneTile` | maincode.py:68-83 | `add_tile` writes 1 or 2 into the chosen empty cell, leaves every other cell alone, raises the grid sum by the new tile and leaves the score bookkeeping alone |
| `Game.AddTileOutcome` | maincode.py:68-95 | with no empty cell the game is lost and nothing changes; otherwise it is won exactly when the grid holds the winning tile, lost exactly when it is not won and no direction changes the grid, and a win or a loss sets `finished`; when play continues, the cell it returns is the chosen empty cell, the one the tile was written to |
| `Game.AddTileNeverFaultsOnTiles` | maincode.py:68-95 | on vocabulary tiles `add_tile` never meets a lookup failure |
| `Game.MoveUnchanged` | maincode.py:50-60 | `move` reports an unchanged grid exactly when the direction leaves the grid alone, and then changes nothing at all |
| `Game.MoveLossIsFinal` | maincode.py:50-95 | a move can only be lost because no direction changes the new grid, and that loss sets `finished` |
| `Game.MoveScore` | maincode.py:50-60 | a move that continues play adds `1 + score` to the total and records it, with the latest tile set to the reported tile; any other outcome leaves the score, the latest score and the latest tile alone |
| `Game.MoveTileIsChosen` | maincode.py:50-95 | when a move continues play, the tile it reports and records as the latest tile is the empty cell chosen on the moved grid, the one the new tile was written to |
| `Game.MoveAddsOneTile` | maincode.py:50-60 | a move that changes the grid keeps the moved cells' sum and adds exactly the new tile |
| `Game.InitializeAddsTiles` | maincode.py:63-66 | `initialize` places one tile, and a second one when the first returns normally and a cell is still empty; it never scores |
| `Game.AddTileIgnoresFinished` | maincode.py:68-95 | `add_tile` does not consult `finished` |
| `Game.MoveIgnoresFinished` | maincode.py:50-60 | `move` does not consult `finished` |
| `Game.MoveNeverFaultsOnSmallTiles` | maincode.py:50-95 | on tiles other than the last entry a move never meets a lookup failure |
| `Play.MergeOfAllowedTiles` | maincode.py:163-172 | two in-bound tiles (not the winning entry `p`, at position at most `p`, or at most 1 when `p` is 0) merge into an entry within that bound |
| `Play.CombineReaches` | maincode.py:154-174 | the merge pass over in-bound tiles succeeds and writes only entries within the bound |
| `Play.StackKeepsPlay` | maincode.py:140-151 | stacking keeps a line's tiles in bound, and keeps them within the bound a merge may reach |
| `Play.MoveLineReaches` | maincode.py:182-192 | the per-line work of a move over in-bound tiles succeeds and writes only entries within the bound |
| `Play.MoveGridReaches` | maincode.py:177-206 | `move_to_direction` over in-bound tiles succeeds and leaves only entries within the bound |
| `Play.NewGameStartsInPlay` | maincode.py:32-47 | a freshly built game is in play: its grid is square, its winning tile is a vocabulary entry, and every cell is empty or in bound: below the winning tile, or a 2 when the winning tile is 1 |
| `Play.InPlayHasSmallTiles` | maincode.py:30-41 | a game in play holds only vocabulary tiles, none of them the last entry |
| `Play.AddTileKeepsPlay` | maincode.py:68-95 | when `add_tile` returns normally, the winning tile is not on the grid, so every tile is in bound: below it, or a 2 when the winning tile is 1 |
| `Play.MoveChangeKeepsPlay` | maincode.py:50-60 | a move that changes the grid and returns normally is in play when its tile placement's state is |
| `Play.MoveKeepsPlay` | maincode.py:50-95 | a move of a game in play that returns normally leaves it in play |
| `Play.InPlayNeverFaults` | maincode.py:50-95 | a move of a game in play never meets a lookup failure |
| `Play.InitializeKeepsPlay` | maincode.py:63-95 | `initialize` on a game in play never meets a lookup failure, and keeps the game in play when it returns normally |
| `Play.Session` | maincode.py:50-60 | a caller playing moves one at a time and stopping at once at the first exception sees at most one outcome per move, and only the last can be an exception |
| `Play.SessionNeverFaults` | maincode.py:50-95 | no move of a session started in play meets a lookup failure |
| `Play.NewGameNeverFaults` | maincode.py:32-95 | a game built by the constructor, initialized and then played move by move by a caller that stops at once at the first `Won` or `Lost` never meets a lookup failure, whatever its size, vocabulary length and random choices |
| `Play.PlayGoesOnAfterWin` | maincode.py:50-95 | `move` does not refuse play after a win: on a won grid `[[3, 2], [0, 0]]` with winning tile 3, finished or not, moving Up continues with a 5 on the grid, which leaves the bound of play |

## Left out

- The user interface: `GameTile`, `ThreesGameUI`, the colour tables, the pygame and tkinter event loop, `sys.exit` and the top-level script (maincode.py:209 onwards). They are rendering and I/O.
- The key codes of `Direction` (maincode.py:25). They are replaced by a four-constructor datatype listed in the same order.
- Probability. `random.choice` and `random.uniform(0, 1) < 0.3` are replaced by the parameters `pick` and `two`; no distribution is modelled.
- Non-square grids. `zip_longest` pads a non-square grid with `None`, so every grid is required to be square with at least one cell. The UI only builds 4 by 4 grids.
- `copy_grid` and `grids_are_equal`. Both are implicit in value semantics and sequence equality.
- The `score` property. It is the `score` field of the state.
- `num_numbers`. It is the length of the `numbers` field.
- `grid_size`. `add_tile` loops to `grid_size` (maincode.py:71-72), and the model loops to `|g|` and `|g[x]|`. The two agree on the square grids the model requires.
- `Play.NewGameNeverFaults`: covers play only up to the first `Won` or `Lost`. `move` never reads `finished`, so a caller that keeps moving after a win can push tiles past the winning tile (`Play.PlayGoesOnAfterWin`), and nothing is promised about lookups then. The UI is such a caller: its exception handlers only clear `running` (maincode.py:348-375), and the key events left in the same batch still call `move`.
- `Grids.LineMove`: its empty-line case cannot occur on a grid with at least one cell. In the source, `stack_col` of an empty line would raise IndexError.

=== FILE: game.dfy ===
/**
 The game state machine of `ThreesGame`: construction, `add_tile`,
 `game_won`, `valid_moves`, `move` and `initialize`.

 The random choices of `add_tile` are parameters: `pick` chooses the
 empty cell (`pick % |empties|` indexes the list of empty cells) and
 `two` says whether the new tile is a 2 rather than a 1. The exceptions
 the game raises become outcomes: `Won` for GameWonException, `Lost` for
 GameOverException and `Fault` for the ValueError a lookup of a value
 outside the vocabulary raises.
 */
module Game {
  import opened Options
  import opened Vocabulary
  import opened Sums
  import opened Lines
  import opened Grids

  /** A grid position `(x, y)`, that is `grid[col][row]`. */
  datatype Cell = Cell(col: nat, row: nat)

  /** The instance state of a `ThreesGame`. */
  datatype ThreesGame = ThreesGame(
    grid: seq<seq<int>>,
    numbers: seq<int>,        // the per-game vocabulary, a prefix of `Numbers`
    maxValue: int,            // its last entry: the tile that wins the game
    score: int,
    finished: bool,
    latestScore: int,
    latestTile: Option<Cell>)

  /** How a call ends: normally (`Unchanged`, `Continue`) or with an exception. */
  datatype Outcome =
    | Unchanged             // `move` found that the grid did not change
    | Continue(tile: Cell)  // a tile was placed at `tile` and play goes on
    | Won                   // GameWonException
    | Lost                  // GameOverException
    | Fault                 // ValueError from a vocabulary lookup

  /** The state after a call, with how the call ended. */
  datatype Step = Step(state: ThreesGame, outcome: Outcome)

  // ---------------------------------------------------------------------
  // Construction
  // ---------------------------------------------------------------------

  /** Python's `xs[:k]`: a negative `k` counts from the end. */
  function SlicePrefix(xs: seq<int>, k: int): (r: seq<int>)
    ensures |r| <= |xs| && r == xs[..|r|]
    ensures 0 <= k ==> |r| == if k < |xs| then k else |xs|
    ensures k < 0 ==> |r| == if |xs| + k > 0 then |xs| + k else 0
  {
    if k >= |xs| then xs
    else if k >= 0 then xs[..k]
    else if |xs| + k > 0 then xs[..|xs| + k]
    else []
  }

  /** `make_new_grid((n, n))`. */
  function EmptyGrid(n: nat): (g: seq<seq<int>>)
    requires n >= 1
    ensures IsGrid(g) && |g| == n
    ensures forall x, y :: 0 <= x < n && 0 <= y < n ==> g[x][y] == 0
  {
    seq(n, _ => seq(n, _ => 0))
  }

  /**
   `ThreesGame((n, n), numNumbers)`. The vocabulary is clamped to at most
   seventeen entries and sliced; when the slice is empty, reading its last
   entry raises IndexError, and there is no game.
   */
  function NewGame(n: nat, numNumbers: int): Option<ThreesGame>
    requires n >= 1
  {
    var k := if numNumbers > |Numbers| then |Numbers| else numNumbers;
    var numbers := SlicePrefix(Numbers, k);
    if |numbers| == 0 then None
    else Some(ThreesGame(EmptyGrid(n), numbers, numbers[|numbers| - 1], 0, false, 0, None))
  }

  // ---------------------------------------------------------------------
  // Queries
  // ---------------------------------------------------------------------

  /** Column-major order, the order of the loops of `add_tile`. */
  predicate Before(a: Cell, b: Cell) {
    a.col < b.col || (a.col == b.col && a.row < b.row)
  }

  /** The empty cells among the first `m` cells of column `x`, top to bottom. */
  function ColumnEmpties(col: seq<int>, x: nat, m: nat): seq<Cell>
    requires m <= |col|
  {
    if m == 0 then []
    else ColumnEmpties(col, x, m - 1) + (if col[m - 1] == 0 then [Cell(x, m - 1)] else [])
  }

  /** The empty cells of the first `k` columns, in column-major order. */
  function EmptyCellsUpTo(g: seq<seq<int>>, k: nat): seq<Cell>
    requires k <= |g|
  {
    if k == 0 then []
    else EmptyCellsUpTo(g, k - 1) + ColumnEmpties(g[k - 1], k - 1, |g[k - 1]|)
  }

  /** The list `nz` that `add_tile` builds. */
  function EmptyCells(g: seq<seq<int>>): seq<Cell> {
    EmptyCellsUpTo(g, |g|)
  }

  lemma {:induction false} ColumnEmptiesSpec(col: seq<int>, x: nat, m: nat)
    requires m <= |col|
    ensures forall c :: c in ColumnEmpties(col, x, m) <==> c.col == x && c.row < m && col[c.row] == 0
    decreases m
  {
    if m > 0 {
      ColumnEmptiesSpec(col, x, m - 1);
    }
  }

  lemma {:induction false} ColumnEmptiesInOrder(col: seq<int>, x: nat, m: nat)
    requires m <= |col|
    ensures forall i :: 0 <= i < |ColumnEmpties(col, x, m)| ==>
      ColumnEmpties(col, x, m)[i].col == x && ColumnEmpties(col, x, m)[i].row < m
    ensures forall i, j :: 0 <= i < j < |ColumnEmpties(col, x, m)| ==>
      ColumnEmpties(col, x, m)[i].row < ColumnEmpties(col, x, m)[j].row
    decreases m
  {
    if m > 0 {
      ColumnEmptiesInOrder(col, x, m - 1);
    }
  }

  lemma {:induction false} EmptyCellsUpToSpec(g: seq<seq<int>>, k: nat)
    requires k <= |g|
    ensures forall c :: c in EmptyCellsUpTo(g, k) <==> c.col < k && c.row < |g[c.col]| && g[c.col][c.row] == 0
    decreases k
  {
    if k > 0 {
      EmptyCellsUpToSpec(g, k - 1);
      ColumnEmptiesSpec(g[k - 1], k - 1, |g[k - 1]|);
    }
  }

  lemma {:induction false} EmptyCellsUpToInOrder(g: seq<seq<int>>, k: nat)
    requires k <= |g|
    ensures forall i :: 0 <= i < |EmptyCellsUpTo(g, k)| ==> EmptyCellsUpTo(g, k)[i].col < k
    ensures forall i, j :: 0 <= i < j < |EmptyCellsUpTo(g, k)| ==> Before(EmptyCellsUpTo(g, k)[i], EmptyCellsUpTo(g, k)[j])
    decreases k
  {
    if k > 0 {
      EmptyCellsUpToInOrder(g, k - 1);
      ColumnEmptiesInOrder(g[k - 1], k - 1, |g[k - 1]|);
    }
  }

  /**
   The list of empty cells holds exactly the empty cells; it is empty
   exactly when the grid has no empty cell.
   */
  lemma EmptyCellsSpec(g: seq<seq<int>>)
    ensures forall c :: c in EmptyCells(g) <==> c.col < |g| && c.row < |g[c.col]| && g[c.col][c.row] == 0
    ensures |EmptyCells(g)| > 0 <==> HasEmpty(g)
  {
    EmptyCellsUpToSpec(g, |g|);
    var r := EmptyCells(g);
    if |r| > 0 {
      assert r[0] in r;
    }
    if HasEmpty(g) {
      var x, y :| 0 <= x < |g| && 0 <= y < |g[x]| && g[x][y] == 0;
      assert Cell(x, y) in r;
    }
  }

  /** The list of empty cells follows the column-major order of the loops of `add_tile`, so no cell occurs twice. */
  lemma EmptyCellsInOrder(g: seq<seq<int>>)
    ensures forall i, j :: 0 <= i < j < |EmptyCells(g)| ==> Before(EmptyCells(g)[i], EmptyCells(g)[j])
  {
    EmptyCellsUpToInOrder(g, |g|);
  }

  /** Entry `i` of the list is an empty cell of the grid. */
  lemma EmptyCellAt(g: seq<seq<int>>, i: nat)
    requires i < |EmptyCells(g)|
    ensures EmptyCells(g)[i].col < |g| && EmptyCells(g)[i].row < |g[EmptyCells(g)[i].col]|
    ensures g[EmptyCells(g)[i].col][EmptyCells(g)[i].row] == 0
  {
    EmptyCellsSpec(g);
    assert EmptyCells(g)[i] in EmptyCells(g);
  }

  /** `game_won` for the grid: whether some cell holds `v`. */
  function GridContains(g: seq<seq<int>>, v: int): bool {
    if |g| == 0 then false else GridContains(g[..|g| - 1], v) || v in g[|g| - 1]
  }

  lemma {:induction false} GridContainsIff(g: seq<seq<int>>, v: int)
    ensures GridContains(g, v) <==> exists x, y :: 0 <= x < |g| && 0 <= y < |g[x]| && g[x][y] == v
    decreases |g|
  {
    if |g| > 0 {
      var front := g[..|g| - 1];
      GridContainsIff(front, v);
      assert forall x :: 0 <= x < |front| ==> front[x] == g[x];
      if v in g[|g| - 1] {
        var y :| 0 <= y < |g[|g| - 1]| && g[|g| - 1][y] == v;
        assert g[|g| - 1][y] == v;
      }
    }
  }

  function GameWon(game: ThreesGame): bool {
    GridContains(game.grid, game.maxValue)
  }

  /** The grid changes when moved in direction `d`. */
  predicate Changes(g: seq<seq<int>>, d: Direction)
    requires IsGrid(g)
  {
    MoveGrid(g, d).Some? && MoveGrid(g, d).value.grid != g
  }

  /** Moving in direction `d` succeeds and leaves the grid as it is. */
  predicate Stays(g: seq<seq<int>>, d: Direction)
    requires IsGrid(g)
  {
    MoveGrid(g, d).Some? && MoveGrid(g, d).value.grid == g
  }

  /** The iteration order of the `Direction` enum. */
  const Directions: seq<Direction> := [Up, Down, Left, Right]

  /**
   The loop of `valid_moves` over `ds`: true at the first direction that
   changes the grid; a lookup failure before that aborts the loop.
   */
  function ValidMovesFrom(g: seq<seq<int>>, ds: seq<Direction>): Option<bool>
    requires IsGrid(g)
  {
    if |ds| == 0 then Some(false)
    else match MoveGrid(g, ds[0])
      case None => None
      case Some(m) => if m.grid != g then Some(true) else ValidMovesFrom(g, ds[1..])
  }

  lemma {:induction false} ValidMovesFromSpec(g: seq<seq<int>>, ds: seq<Direction>)
    requires IsGrid(g)
    ensures ValidMovesFrom(g, ds) == Some(true) ==> exists i :: 0 <= i < |ds| && Changes(g, ds[i])
    ensures ValidMovesFrom(g, ds) == Some(false) <==> forall i :: 0 <= i < |ds| ==> Stays(g, ds[i])
    ensures (forall i :: 0 <= i < |ds| ==> MoveGrid(g, ds[i]).Some?) ==> ValidMovesFrom(g, ds).Some?
    decreases |ds|
  {
    if |ds| > 0 {
      ValidMovesFromSpec(g, ds[1..]);
      assert forall i :: 1 <= i < |ds| ==> ds[1..][i - 1] == ds[i];
    }
  }

  function ValidMoves(g: seq<seq<int>>): Option<bool>
    requires IsGrid(g)
  {
    ValidMovesFrom(g, Directions)
  }

  // ---------------------------------------------------------------------
  // Transitions
  // ---------------------------------------------------------------------

  /** The tile `add_tile` writes: 2 when the uniform draw falls below 0.3, else 1. */
  function NewTileValue(two: bool): int {
    if two then 2 else 1
  }

  /** `grid[x][y] = v`. */
  function Place(g: seq<seq<int>>, c: Cell, v: int): (r: seq<seq<int>>)
    requires c.col < |g| && c.row < |g[c.col]|
    ensures |r| == |g| && (IsGrid(g) ==> IsGrid(r))
  {
    g[c.col := g[c.col][c.row := v]]
  }

  /** The empty cell `random.choice` returns for the choice `pick`. */
  function Chosen(g: seq<seq<int>>, pick: nat): (c: Cell)
    requires |EmptyCells(g)| > 0
    ensures c.col < |g| && c.row < |g[c.col]| && g[c.col][c.row] == 0
  {
    var empties := EmptyCells(g);
    EmptyCellAt(g, pick % |empties|);
    empties[pick % |empties|]
  }

  /**
   `add_tile`: place a 1 or a 2 on an empty cell, then check for a win
   and only after that for a loss. With no empty cell the game is lost
   and nothing changes, `finished` included.
   */
  function AddTile(game: ThreesGame, pick: nat, two: bool): (s: Step)
    requires IsGrid(game.grid)
    ensures IsGrid(s.state.grid)
  {
    if |EmptyCells(game.grid)| == 0 then Step(game, Lost)
    else
      var c := Chosen(game.grid, pick);
      var placed := game.(grid := Place(game.grid, c, NewTileValue(two)));
      if GameWon(placed) then Step(placed.(finished := true), Won)
      else match ValidMoves(placed.grid)
        case None => Step(placed, Fault)
        case Some(false) => Step(placed.(finished := true), Lost)
        case Some(true) => Step(placed, Continue(c))
  }

  /**
   `move`: move the grid; when it changes, add a tile, and only if that
   returns normally add `1 + score` to the total. A move that leaves the
   grid unchanged changes nothing. `finished` is never consulted.
   */
  function Move(game: ThreesGame, d: Direction, pick: nat, two: bool): (s: Step)
    requires IsGrid(game.grid)
    ensures IsGrid(s.state.grid)
  {
    match MoveGrid(game.grid, d)
    case None => Step(game, Fault)
    case Some(m) =>
      if m.grid == game.grid then Step(game, Unchanged)
      else
        var added := AddTile(game.(grid := m.grid), pick, two);
        if added.outcome.Continue? then
          Step(added.state.(score := added.state.score + 1 + m.score,
                            latestScore := 1 + m.score,
                            latestTile := Some(added.outcome.tile)),
               added.outcome)
        else added
  }

  /** `initialize`: two tiles; an exception from the first ends the call. */
  function Initialize(game: ThreesGame, pick1: nat, two1: bool, pick2: nat, two2: bool): (s: Step)
    requires IsGrid(game.grid)
    ensures IsGrid(s.state.grid)
  {
    var first := AddTile(game, pick1, two1);
    if first.outcome.Continue? then AddTile(first.state, pick2, two2) else first
  }

  // ---------------------------------------------------------------------
  // Properties
  // ---------------------------------------------------------------------

  /**
   Construction succeeds unless the sliced vocabulary is empty; the game
   starts on an empty grid with no score, and its winning tile is the last
   entry of the slice.
   */
  lemma NewGameSpec(n: nat, numNumbers: int)
    requires n >= 1
    ensures NewGame(n, numNumbers).Some? <==> numNumbers != 0 && numNumbers > -|Numbers|
    ensures NewGame(n, numNumbers).Some? ==>
      var game := NewGame(n, numNumbers).value;
      var m := if numNumbers >= |Numbers| then |Numbers| else if numNumbers > 0 then numNumbers else |Numbers| + numNumbers;
      1 <= m <= |Numbers| && game.numbers == Numbers[..m] && game.maxValue == Numbers[m - 1] &&
      IsTile(game.maxValue) && IsGrid(game.grid) && |game.grid| == n && !GridContains(game.grid, game.maxValue) &&
      (forall x, y :: 0 <= x < n && 0 <= y < n ==> game.grid[x][y] == 0) &&
      game.score == 0 && !game.finished && game.latestScore == 0 && game.latestTile.None?
  {
    if NewGame(n, numNumbers).Some? {
      var m := if numNumbers >= |Numbers| then |Numbers| else if numNumbers > 0 then numNumbers else |Numbers| + numNumbers;
      IndexOfEntry(m - 1);
      NumbersIncrease();
      GridContainsIff(EmptyGrid(n), Numbers[m - 1]);
    }
  }

  /** Every empty cell is the choice of some `pick`, and only empty cells are. */
  lemma ChoiceCoversEmptyCells(g: seq<seq<int>>, c: Cell)
    requires |EmptyCells(g)| > 0
    ensures (exists pick: nat :: Chosen(g, pick) == c) <==> c.col < |g| && c.row < |g[c.col]| && g[c.col][c.row] == 0
  {
    if c.col < |g| && c.row < |g[c.col]| && g[c.col][c.row] == 0 {
      var empties := EmptyCells(g);
      assert c in empties by { EmptyCellsSpec(g); }
      var i :| 0 <= i < |empties| && empties[i] == c;
      assert i % |empties| == i;
      assert Chosen(g, i) == c;
    }
  }

  /**
   A tile placement on a grid with an empty cell writes a 1 or a 2 into
   the chosen empty cell, leaves every other cell alone and so raises the
   grid sum by exactly the new tile. The score bookkeeping is untouched.
   */
  lemma AddTilePlacesOneTile(game: ThreesGame, pick: nat, two: bool)
    requires IsGrid(game.grid) && |EmptyCells(game.grid)| > 0
    ensures var s := AddTile(game, pick, two); var c := Chosen(game.grid, pick);
      game.grid[c.col][c.row] == 0 && s.state.grid[c.col][c.row] == NewTileValue(two) &&
      (forall x, y :: 0 <= x < |game.grid| && 0 <= y < |game.grid| && (x != c.col || y != c.row) ==>
         s.state.grid[x][y] == game.grid[x][y]) &&
      GridSum(s.state.grid) == GridSum(game.grid) + NewTileValue(two) &&
      s.state.score == game.score && s.state.latestScore == game.latestScore && s.state.latestTile == game.latestTile &&
      s.state.numbers == game.numbers && s.state.maxValue == game.maxValue
  {
    var c := Chosen(game.grid, pick);
    var col := game.grid[c.col];
    AddTilePlaces(game, pick, two);
    GridSumUpdate(game.grid, c.col, col[c.row := NewTileValue(two)]);
    SumUpdate(col, c.row, NewTileValue(two));
  }

  /** With an empty cell, a tile placement writes the tile and keeps everything but `finished`. */
  lemma AddTilePlaces(game: ThreesGame, pick: nat, two: bool)
    requires IsGrid(game.grid) && |EmptyCells(game.grid)| > 0
    ensures AddTile(game, pick, two).state ==
      game.(grid := Place(game.grid, Chosen(game.grid, pick), NewTileValue(two)),
            finished := AddTile(game, pick, two).state.finished)
  {
  }

  /** Every direction, as the loop of `valid_moves` meets it. */
  lemma DirectionsListed(d: Direction) returns (i: nat)
    ensures i < |Directions| && Directions[i] == d
  {
    i := match d case Up => 0 case Down => 1 case Left => 2 case Right => 3;
  }

  /**
   `valid_moves` answers true only when some direction changes the grid
   and false exactly when every direction succeeds without changing it.
   */
  lemma ValidMovesIff(g: seq<seq<int>>)
    requires IsGrid(g)
    ensures ValidMoves(g) == Some(true) ==> exists d :: Changes(g, d)
    ensures ValidMoves(g) == Some(false) <==> forall d :: Stays(g, d)
  {
    ValidMovesFromSpec(g, Directions);
    if forall i :: 0 <= i < |Directions| ==> Stays(g, Directions[i]) {
      forall d ensures Stays(g, d) {
        var i := DirectionsListed(d);
      }
    }
  }

  /**
   On a grid of vocabulary tiles `valid_moves` always answers, and answers
   true exactly when some direction changes the grid.
   */
  lemma ValidMovesOnTiles(g: seq<seq<int>>)
    requires IsGrid(g) && GridTiles(g)
    ensures ValidMoves(g).Some?
    ensures ValidMoves(g) == Some(true) <==> exists d :: Changes(g, d)
  {
    ValidMovesAnswerOnTiles(g);
    ValidMovesIff(g);
    if !ValidMoves(g).value {
      forall d ensures !Changes(g, d) {
        assert Stays(g, d);
      }
    }
  }

  /** On a grid of vocabulary tiles every direction answers, so the loop does too. */
  lemma ValidMovesAnswerOnTiles(g: seq<seq<int>>)
    requires IsGrid(g) && GridTiles(g)
    ensures ValidMoves(g).Some?
  {
    forall i | 0 <= i < |Directions| ensures MoveGrid(g, Directions[i]).Some? {
      MoveGridOnTiles(g, Directions[i]);
    }
    ValidMovesFromSpec(g, Directions);
  }

  /**
   The outcome of a tile placement: with no empty cell the game is lost
   and nothing changes, not even `finished`. Otherwise the win check comes
   first: the game is won exactly when the new grid holds the winning tile.
   Only then does a grid no direction can change lose the game, and play
   continues exactly when some direction can change it.
   */
  lemma AddTileOutcome(game: ThreesGame, pick: nat, two: bool)
    requires IsGrid(game.grid)
    ensures !HasEmpty(game.grid) ==> AddTile(game, pick, two) == Step(game, Lost)
    ensures HasEmpty(game.grid) ==>
      var s := AddTile(game, pick, two);
      (s.outcome == Won <==> GridContains(s.state.grid, game.maxValue)) &&
      (s.outcome == Lost <==> !GridContains(s.state.grid, game.maxValue) && forall d :: Stays(s.state.grid, d)) &&
      (s.outcome.Continue? ==> exists d :: Changes(s.state.grid, d)) &&
      (s.outcome.Won? || s.outcome.Lost? ==> s.state.finished) &&
      (s.outcome.Continue? || s.outcome.Fault? ==> s.state.finished == game.finished) &&
      !s.outcome.Unchanged?
    ensures AddTile(game, pick, two).outcome.Continue? ==>
      |EmptyCells(game.grid)| > 0 && AddTile(game, pick, two).outcome.tile == Chosen(game.grid, pick)
  {
    EmptyCellsSpec(game.grid);
    if HasEmpty(game.grid) {
      AddTilePlaces(game, pick, two);
      ValidMovesIff(Place(game.grid, Chosen(game.grid, pick), NewTileValue(two)));
    }
  }

  /** On a grid of vocabulary tiles, placing a tile never meets a lookup failure. */
  lemma AddTileNeverFaultsOnTiles(game: ThreesGame, pick: nat, two: bool)
    requires IsGrid(game.grid) && GridTiles(game.grid)
    ensures !AddTile(game, pick, two).outcome.Fault?
  {
    if |EmptyCells(game.grid)| > 0 {
      var c := Chosen(game.grid, pick);
      var g := Place(game.grid, c, NewTileValue(two));
      PlaceKeepsTiles(game.grid, c, NewTileValue(two));
      ValidMovesAnswerOnTiles(g);
    }
  }

  /** Writing a vocabulary tile into a grid of vocabulary tiles keeps it one. */
  lemma PlaceKeepsTiles(g: seq<seq<int>>, c: Cell, v: int)
    requires c.col < |g| && c.row < |g[c.col]|
    requires GridTiles(g) && IsTile(v)
    ensures GridTiles(Place(g, c, v))
  {
    var r := Place(g, c, v);
    forall x | 0 <= x < |r| ensures AllTiles(r[x]) {
      assert AllTiles(g[x]);
    }
  }

  /**
   A move that leaves the grid unchanged leaves the whole game alone, and
   only such a move reports `Unchanged`; a lookup failure in the move
   itself also leaves the game alone.
   */
  lemma MoveUnchanged(game: ThreesGame, d: Direction, pick: nat, two: bool)
    requires IsGrid(game.grid)
    ensures Move(game, d, pick, two).outcome.Unchanged? <==> Stays(game.grid, d)
    ensures Move(game, d, pick, two).outcome.Unchanged? ==> Move(game, d, pick, two).state == game
    ensures MoveGrid(game.grid, d).None? ==> Move(game, d, pick, two) == Step(game, Fault)
  {
    match MoveGrid(game.grid, d)
    case None =>
    case Some(m) =>
      if m.grid != game.grid {
        AddTileNeverUnchanged(game.(grid := m.grid), pick, two);
      }
  }

  /** A tile placement never reports `Unchanged`. */
  lemma AddTileNeverUnchanged(game: ThreesGame, pick: nat, two: bool)
    requires IsGrid(game.grid)
    ensures !AddTile(game, pick, two).outcome.Unchanged?
  {
  }

  /**
   A move that changes the grid always leaves an empty cell for the new
   tile, so it can only be lost because no direction changes the grid
   afterwards, and such a loss sets `finished`.
   */
  lemma MoveLossIsFinal(game: ThreesGame, d: Direction, pick: nat, two: bool)
    requires IsGrid(game.grid)
    ensures Move(game, d, pick, two).outcome == Lost ==>
      Move(game, d, pick, two).state.finished && forall d' :: Stays(Move(game, d, pick, two).state.grid, d')
  {
    match MoveGrid(game.grid, d)
    case None =>
    case Some(m) =>
      if m.grid != game.grid {
        MoveGridChangeLeavesEmptyCell(game.grid, d);
        MoveDelegates(game, d, pick, two);
        AddTileOutcome(game.(grid := m.grid), pick, two);
      }
  }

  /**
   Score bookkeeping: a move that continues play adds one plus the score
   of the grid move, which is the last line's merge score, and records it
   with the new tile; every other outcome leaves the score, the latest
   score and the latest tile as they were. So the score never decreases.
   */
  lemma MoveScore(game: ThreesGame, d: Direction, pick: nat, two: bool)
    requires IsGrid(game.grid)
    ensures var s := Move(game, d, pick, two);
      s.outcome.Continue? ==>
        MoveGrid(game.grid, d).Some? &&
        s.state.score == game.score + 1 + MoveGrid(game.grid, d).value.score &&
        s.state.latestScore == 1 + MoveGrid(game.grid, d).value.score &&
        s.state.latestTile == Some(s.outcome.tile) &&
        s.state.score > game.score
    ensures var s := Move(game, d, pick, two);
      !s.outcome.Continue? ==>
        s.state.score == game.score && s.state.latestScore == game.latestScore && s.state.latestTile == game.latestTile
  {
    var s := Move(game, d, pick, two);
    if MoveGrid(game.grid, d).Some? {
      MoveGridScoreNonNegative(game.grid, d);
      var m := MoveGrid(game.grid, d).value;
      if m.grid != game.grid {
        MoveGridChangeLeavesEmptyCell(game.grid, d);
        EmptyCellsSpec(m.grid);
        AddTilePlacesOneTile(game.(grid := m.grid), pick, two);
      }
    }
  }

  /**
   The tile a continuing move reports (and records as the latest tile) is
   the empty cell chosen on the moved grid, the one the new tile went to.
   */
  lemma MoveTileIsChosen(game: ThreesGame, d: Direction, pick: nat, two: bool)
    requires IsGrid(game.grid)
    ensures var s := Move(game, d, pick, two);
      s.outcome.Continue? ==>
        MoveGrid(game.grid, d).Some? &&
        |EmptyCells(MoveGrid(game.grid, d).value.grid)| > 0 &&
        s.outcome.tile == Chosen(MoveGrid(game.grid, d).value.grid, pick) &&
        s.state.latestTile == Some(s.outcome.tile)
  {
    if MoveGrid(game.grid, d).Some? {
      var m := MoveGrid(game.grid, d).value;
      if m.grid != game.grid {
        AddTileOutcome(game.(grid := m.grid), pick, two);
        MoveDelegates(game, d, pick, two);
      }
    }
  }

  /**
   A move that changes the grid keeps the sum of the moved cells and then
   adds the new tile: the grid sum grows by exactly 1 or 2.
   */
  lemma MoveAddsOneTile(game: ThreesGame, d: Direction, pick: nat, two: bool)
    requires IsGrid(game.grid)
    requires MoveGrid(game.grid, d).Some? && !Stays(game.grid, d)
    ensures !Move(game, d, pick, two).outcome.Unchanged?
    ensures GridSum(Move(game, d, pick, two).state.grid) == GridSum(game.grid) + NewTileValue(two)
  {
    var m := MoveGrid(game.grid, d).value;
    MoveGridKeepsSum(game.grid, d);
    MoveGridChangeLeavesEmptyCell(game.grid, d);
    EmptyCellsSpec(m.grid);
    MoveDelegates(game, d, pick, two);
    AddTileNeverUnchanged(game.(grid := m.grid), pick, two);
    AddTilePlacesOneTile(game.(grid := m.grid), pick, two);
  }

  /** A move that changes the grid places its tile on the moved grid. */
  lemma MoveDelegates(game: ThreesGame, d: Direction, pick: nat, two: bool)
    requires IsGrid(game.grid)
    requires MoveGrid(game.grid, d).Some? && !Stays(game.grid, d)
    ensures var added := AddTile(game.(grid := MoveGrid(game.grid, d).value.grid), pick, two);
      Move(game, d, pick, two).outcome == added.outcome && Move(game, d, pick, two).state.grid == added.state.grid &&
      Move(game, d, pick, two).state.maxValue == added.state.maxValue
  {
  }

  /**
   `initialize` places one tile, and a second one when the first leaves
   the game going and the grid still has an empty cell; it never scores.
   */
  lemma InitializeAddsTiles(game: ThreesGame, pick1: nat, two1: bool, pick2: nat, two2: bool)
    requires IsGrid(game.grid) && HasEmpty(game.grid)
    ensures var s := Initialize(game, pick1, two1, pick2, two2);
      var first := AddTile(game, pick1, two1);
      GridSum(s.state.grid) == GridSum(game.grid) + NewTileValue(two1) +
        (if first.outcome.Continue? && HasEmpty(first.state.grid) then NewTileValue(two2) else 0) &&
      s.state.score == game.score && s.state.latestScore == game.latestScore && s.state.latestTile == game.latestTile
  {
    var first := AddTile(game, pick1, two1);
    EmptyCellsSpec(game.grid);
    AddTilePlacesOneTile(game, pick1, two1);
    if first.outcome.Continue? {
      EmptyCellsSpec(first.state.grid);
      if HasEmpty(first.state.grid) {
        AddTilePlacesOneTile(first.state, pick2, two2);
      }
    }
  }

  /** `add_tile` never consults `finished`. */
  lemma AddTileIgnoresFinished(game: ThreesGame, pick: nat, two: bool, finished: bool)
    requires IsGrid(game.grid)
    ensures AddTile(game.(finished := finished), pick, two).outcome == AddTile(game, pick, two).outcome
    ensures AddTile(game.(finished := finished), pick, two).state.grid == AddTile(game, pick, two).state.grid
  {
  }

  /** `move` never consults `finished`: the outcome is the same either way. */
  lemma MoveIgnoresFinished(game: ThreesGame, d: Direction, pick: nat, two: bool, finished: bool)
    requires IsGrid(game.grid)
    ensures Move(game.(finished := finished), d, pick, two).outcome == Move(game, d, pick, two).outcome
    ensures Move(game.(finished := finished), d, pick, two).state.grid == Move(game, d, pick, two).state.grid
  {
    var other := game.(finished := finished);
    match MoveGrid(game.grid, d)
    case None =>
    case Some(m) =>
      if m.grid != game.grid {
        assert other.(grid := m.grid) == game.(grid := m.grid).(finished := finished);
        AddTileIgnoresFinished(game.(grid := m.grid), pick, two, finished);
      }
  }

  /**
   On a grid of vocabulary tiles other than the last entry, a move never
   meets a lookup failure: the moved grid holds vocabulary tiles only, and
   so does the grid after the new tile.
   */
  lemma MoveNeverFaultsOnSmallTiles(game: ThreesGame, d: Direction, pick: nat, two: bool)
    requires IsGrid(game.grid) && GridSmallTiles(game.grid)
    ensures !Move(game, d, pick, two).outcome.Fault?
  {
    MoveGridOnTiles(game.grid, d);
    var m := MoveGrid(game.grid, d).value;
    AddTileNeverFaultsOnTiles(game.(grid := m.grid), pick, two);
  }
}

=== FILE: grids.dfy ===
/**
 Whole-grid moves (`move_to_direction`). A grid is a square sequence of
 columns, indexed `grid[col][row]`. Up and Down slide every column, Down
 on the reversed column; Left and Right transpose the grid (`zip_longest`
 on a square grid), slide its rows the same way and transpose back.

 The score a move reports is reassigned for every line, so it is the
 score of the last line processed: the last column for Up and Down, the
 bottom row for Left and Right.
 */
module Grids {
  import opened Options
  import opened Vocabulary
  import opened Sums
  import opened Lines

  datatype Direction = Up | Down | Left | Right

  /** A grid after a move, with the score the move reports. */
  datatype Moved = Moved(grid: seq<seq<int>>, score: int)

  /** Every column of `g` has `h` cells. */
  predicate Rect(g: seq<seq<int>>, h: nat) {
    forall x :: 0 <= x < |g| ==> |g[x]| == h
  }

  /** A square grid with at least one cell. */
  predicate IsGrid(g: seq<seq<int>>) {
    |g| >= 1 && Rect(g, |g|)
  }

  /** The grid has an empty cell. */
  predicate HasEmpty(g: seq<seq<int>>) {
    exists x, y :: 0 <= x < |g| && 0 <= y < |g[x]| && g[x][y] == 0
  }

  /** Every cell is empty or a vocabulary value. */
  predicate GridTiles(g: seq<seq<int>>) {
    forall x :: 0 <= x < |g| ==> AllTiles(g[x])
  }

  /** Every cell is empty or a vocabulary value other than the last. */
  predicate GridSmallTiles(g: seq<seq<int>>) {
    forall x :: 0 <= x < |g| ==> AllSmallTiles(g[x])
  }

  predicate GridNonNegative(g: seq<seq<int>>) {
    forall x :: 0 <= x < |g| ==> NonNegative(g[x])
  }

  // ---------------------------------------------------------------------
  // Transposition
  // ---------------------------------------------------------------------

  /** The rows of a grid of `|g|` columns of height `h`, as `zip_longest(*g)` lists them. */
  function TransposeRect(g: seq<seq<int>>, h: nat): (t: seq<seq<int>>)
    requires Rect(g, h)
    ensures |t| == h && Rect(t, |g|)
    ensures forall y, x :: 0 <= y < h && 0 <= x < |g| ==> t[y][x] == g[x][y]
  {
    seq(h, y requires 0 <= y < h => seq(|g|, x requires 0 <= x < |g| => g[x][y]))
  }

  function Transpose(g: seq<seq<int>>): (t: seq<seq<int>>)
    requires IsGrid(g)
    ensures IsGrid(t)
  {
    TransposeRect(g, |g|)
  }

  /** Transposing twice gives the grid back. */
  lemma TransposeInvolution(g: seq<seq<int>>)
    requires IsGrid(g)
    ensures Transpose(Transpose(g)) == g
  {
    var t := Transpose(Transpose(g));
    forall x | 0 <= x < |g| ensures t[x] == g[x] {
    }
  }

  /** The sum of all cells, column by column from the back. */
  function GridSum(g: seq<seq<int>>): int {
    if |g| == 0 then 0 else GridSum(g[..|g| - 1]) + Sum(g[|g| - 1])
  }

  lemma {:induction false} GridSumOfEmptyLines(t: seq<seq<int>>)
    requires forall y :: 0 <= y < |t| ==> t[y] == []
    ensures GridSum(t) == 0
    decreases |t|
  {
    if |t| > 0 {
      GridSumOfEmptyLines(t[..|t| - 1]);
    }
  }

  /** Appending one cell to every line adds the sum of the appended cells. */
  lemma {:induction false} GridSumOfExtendedLines(t: seq<seq<int>>, col: seq<int>, u: seq<seq<int>>)
    requires |t| == |col| == |u|
    requires forall y :: 0 <= y < |u| ==> u[y] == t[y] + [col[y]]
    ensures GridSum(u) == GridSum(t) + Sum(col)
    decreases |u|
  {
    if |u| > 0 {
      var k := |u| - 1;
      GridSumOfExtendedLines(t[..k], col[..k], u[..k]);
      assert u[k][..|u[k]| - 1] == t[k];
    }
  }

  /** Replacing one line changes the grid sum by the difference of the line sums. */
  lemma {:induction false} GridSumUpdate(g: seq<seq<int>>, x: nat, line: seq<int>)
    requires x < |g|
    ensures GridSum(g[x := line]) == GridSum(g) - Sum(g[x]) + Sum(line)
    decreases |g|
  {
    var k := |g| - 1;
    if x < k {
      GridSumUpdate(g[..k], x, line);
      assert g[x := line][..k] == g[..k][x := line];
    } else {
      assert g[x := line][..k] == g[..k];
    }
  }

  /** Transposition keeps the sum of all cells. */
  lemma {:induction false} GridSumTranspose(g: seq<seq<int>>, h: nat)
    requires Rect(g, h)
    ensures GridSum(TransposeRect(g, h)) == GridSum(g)
    decreases |g|
  {
    var t := TransposeRect(g, h);
    if |g| == 0 {
      GridSumOfEmptyLines(t);
    } else {
      var k := |g| - 1;
      var front := g[..k];
      GridSumTranspose(front, h);
      var t' := TransposeRect(front, h);
      forall y | 0 <= y < h ensures t[y] == t'[y] + [g[k][y]] {
      }
      GridSumOfExtendedLines(t', g[k], t);
    }
  }

  // ---------------------------------------------------------------------
  // Moving every line
  // ---------------------------------------------------------------------

  /** An operation on lines that keeps the length of every line it accepts. */
  ghost predicate KeepsLength(mv: seq<int> -> Option<Combined>) {
    forall line :: mv(line).Some? ==> |mv(line).value.line| == |line|
  }

  /**
   The line operation of one direction: `MoveLine`, towards the end of the
   line when `flip` holds. Grid lines are never empty; an empty line is
   left alone.
   */
  function LineMove(flip: bool): (mv: seq<int> -> Option<Combined>)
    ensures KeepsLength(mv)
  {
    line => if |line| == 0 then Some(Combined(line, 0)) else MoveLine(line, flip)
  }

  /**
   The loop of `move_to_direction`: every line moved in order, the score
   reassigned by each line. A lookup failure in any line fails the move.
   */
  function MoveLines(g: seq<seq<int>>, h: nat, mv: seq<int> -> Option<Combined>): (r: Option<Moved>)
    requires Rect(g, h) && KeepsLength(mv)
    ensures r.Some? ==> |r.value.grid| == |g| && Rect(r.value.grid, h)
  {
    if |g| == 0 then Some(Moved([], 0))
    else match MoveLines(g[..|g| - 1], h, mv)
      case None => None
      case Some(m) =>
        match mv(g[|g| - 1])
        case None => None
        case Some(c) => Some(Moved(m.grid + [c.line], c.score))
  }

  /** `move_to_direction(grid, d)`. */
  function MoveGrid(g: seq<seq<int>>, d: Direction): (r: Option<Moved>)
    requires IsGrid(g)
    ensures r.Some? ==> IsGrid(r.value.grid) && |r.value.grid| == |g|
  {
    match d
    case Up => MoveLines(g, |g|, LineMove(false))
    case Down => MoveLines(g, |g|, LineMove(true))
    case Left => TransposeMoved(MoveLines(Transpose(g), |g|, LineMove(false)))
    case Right => TransposeMoved(MoveLines(Transpose(g), |g|, LineMove(true)))
  }

  function TransposeMoved(r: Option<Moved>): (t: Option<Moved>)
    requires r.Some? ==> IsGrid(r.value.grid)
    ensures t.Some? <==> r.Some?
    ensures t.Some? ==> IsGrid(t.value.grid) && |t.value.grid| == |r.value.grid|
  {
    match r
    case None => None
    case Some(m) => Some(Moved(Transpose(m.grid), m.score))
  }

  // ---------------------------------------------------------------------
  // Lemmas
  // ---------------------------------------------------------------------

  /**
   Moving every line succeeds exactly when every line move does; each
   line of the result is that line's move, and the score is the last
   line's.
   */
  lemma {:induction false} MoveLinesLinewise(g: seq<seq<int>>, h: nat, mv: seq<int> -> Option<Combined>)
    requires Rect(g, h) && KeepsLength(mv)
    ensures MoveLines(g, h, mv).Some? <==> forall x :: 0 <= x < |g| ==> mv(g[x]).Some?
    ensures MoveLines(g, h, mv).Some? ==>
      forall x :: 0 <= x < |g| ==> mv(g[x]).Some? && MoveLines(g, h, mv).value.grid[x] == mv(g[x]).value.line
    ensures MoveLines(g, h, mv).Some? && |g| > 0 ==>
      MoveLines(g, h, mv).value.score == mv(g[|g| - 1]).value.score
    decreases |g|
  {
    if |g| > 0 {
      var k := |g| - 1;
      MoveLinesLinewise(g[..k], h, mv);
      assert forall x :: 0 <= x < k ==> g[..k][x] == g[x];
    }
  }

  // ---------------------------------------------------------------------
  // What the line operation guarantees, as properties of a line operation
  // ---------------------------------------------------------------------

  ghost predicate KeepsSum(mv: seq<int> -> Option<Combined>) {
    forall line :: mv(line).Some? ==> Sum(mv(line).value.line) == Sum(line)
  }

  ghost predicate EmptiesWhenChanged(mv: seq<int> -> Option<Combined>) {
    forall line :: mv(line).Some? && mv(line).value.line != line ==> ZeroCount(mv(line).value.line) > 0
  }

  ghost predicate ScoresNonNegative(mv: seq<int> -> Option<Combined>) {
    forall line :: mv(line).Some? ==> mv(line).value.score >= 0
  }

  ghost predicate AcceptsTiles(mv: seq<int> -> Option<Combined>) {
    forall line :: AllTiles(line) ==> mv(line).Some?
  }

  ghost predicate ClosedOnSmallTiles(mv: seq<int> -> Option<Combined>) {
    forall line :: AllSmallTiles(line) ==> mv(line).Some? && AllTiles(mv(line).value.line)
  }

  /** The line move of either orientation has all of the properties above. */
  lemma LineMoveFacts(flip: bool)
    ensures KeepsSum(LineMove(flip)) && EmptiesWhenChanged(LineMove(flip)) && ScoresNonNegative(LineMove(flip))
    ensures AcceptsTiles(LineMove(flip)) && ClosedOnSmallTiles(LineMove(flip))
  {
    var mv := LineMove(flip);
    forall line | mv(line).Some? && |line| >= 1
      ensures Sum(mv(line).value.line) == Sum(line) && mv(line).value.score >= 0
    {
      MoveLineKeepsSum(line, flip);
      MoveLineScoreBounds(line, flip);
    }
    forall line | mv(line).Some? && mv(line).value.line != line
      ensures ZeroCount(mv(line).value.line) > 0
    {
      MoveLineChangeLeavesEmptyCell(line, flip);
    }
    forall line | AllTiles(line) && |line| >= 1 ensures mv(line).Some? {
      MoveLineSucceedsOnTiles(line, flip);
    }
    forall line | AllSmallTiles(line) && |line| >= 1
      ensures mv(line).Some? && AllTiles(mv(line).value.line)
    {
      MoveLineStaysInVocabulary(line, flip);
    }
  }

  // ---------------------------------------------------------------------
  // Moving every line: what carries over from the line operation
  // ---------------------------------------------------------------------

  /** Line operations that keep line sums keep the grid sum. */
  lemma {:induction false} MoveLinesKeepSum(g: seq<seq<int>>, h: nat, mv: seq<int> -> Option<Combined>)
    requires Rect(g, h) && KeepsLength(mv) && KeepsSum(mv)
    requires MoveLines(g, h, mv).Some?
    ensures GridSum(MoveLines(g, h, mv).value.grid) == GridSum(g)
    decreases |g|
  {
    if |g| > 0 {
      var k := |g| - 1;
      MoveLinesKeepSum(g[..k], h, mv);
      var m := MoveLines(g[..k], h, mv).value;
      var c := mv(g[k]).value;
      assert (m.grid + [c.line])[..k] == m.grid;
    }
  }

  /** The grid is left alone exactly when every line is. */
  lemma MoveLinesUnchanged(g: seq<seq<int>>, h: nat, mv: seq<int> -> Option<Combined>)
    requires Rect(g, h) && KeepsLength(mv)
    ensures (MoveLines(g, h, mv).Some? && MoveLines(g, h, mv).value.grid == g) <==>
      forall x :: 0 <= x < |g| ==> mv(g[x]).Some? && mv(g[x]).value.line == g[x]
  {
    MoveLinesLinewise(g, h, mv);
  }

  /** If line operations only change lines by emptying cells, so does the grid move. */
  lemma MoveLinesChangeLeavesEmptyCell(g: seq<seq<int>>, h: nat, mv: seq<int> -> Option<Combined>)
    requires Rect(g, h) && KeepsLength(mv) && EmptiesWhenChanged(mv)
    requires MoveLines(g, h, mv).Some? && MoveLines(g, h, mv).value.grid != g
    ensures HasEmpty(MoveLines(g, h, mv).value.grid)
  {
    var r := MoveLines(g, h, mv).value.grid;
    MoveLinesLinewise(g, h, mv);
    assert exists x :: 0 <= x < |g| && r[x] != g[x];
    var x :| 0 <= x < |g| && r[x] != g[x];
    var y := EmptyCellOf(r[x]);
    assert r[x][y] == 0;
  }

  lemma MoveLinesAcceptTiles(g: seq<seq<int>>, h: nat, mv: seq<int> -> Option<Combined>)
    requires Rect(g, h) && KeepsLength(mv) && AcceptsTiles(mv) && ClosedOnSmallTiles(mv)
    ensures GridTiles(g) ==> MoveLines(g, h, mv).Some?
    ensures GridSmallTiles(g) ==> MoveLines(g, h, mv).Some? && GridTiles(MoveLines(g, h, mv).value.grid)
  {
    MoveLinesLinewise(g, h, mv);
  }

  // ---------------------------------------------------------------------
  // Transposition keeps the cell properties
  // ---------------------------------------------------------------------

  lemma TransposeKeepsEmptyCells(g: seq<seq<int>>)
    requires IsGrid(g)
    ensures HasEmpty(Transpose(g)) <==> HasEmpty(g)
  {
    var t := Transpose(g);
    if HasEmpty(g) {
      var x, y :| 0 <= x < |g| && 0 <= y < |g[x]| && g[x][y] == 0;
      assert t[y][x] == 0;
    }
    if HasEmpty(t) {
      var y, x :| 0 <= y < |t| && 0 <= x < |t[y]| && t[y][x] == 0;
      assert g[x][y] == 0;
    }
  }

  lemma TransposeKeepsTiles(g: seq<seq<int>>)
    requires IsGrid(g)
    ensures GridTiles(Transpose(g)) <==> GridTiles(g)
  {
    var t := Transpose(g);
    if GridTiles(g) {
      forall y | 0 <= y < |t| ensures AllTiles(t[y]) {
        forall x | 0 <= x < |g| ensures IsTile(t[y][x]) {
          assert AllTiles(g[x]);
        }
      }
    }
    if GridTiles(t) {
      forall x | 0 <= x < |g| ensures AllTiles(g[x]) {
        forall y | 0 <= y < |g| ensures IsTile(g[x][y]) {
          assert AllTiles(t[y]);
        }
      }
    }
  }

  lemma TransposeKeepsSmallTiles(g: seq<seq<int>>)
    requires IsGrid(g)
    ensures GridSmallTiles(Transpose(g)) <==> GridSmallTiles(g)
  {
    var t := Transpose(g);
    if GridSmallTiles(g) {
      forall y | 0 <= y < |t| ensures AllSmallTiles(t[y]) {
        forall x | 0 <= x < |g| ensures IsSmallTile(t[y][x]) {
          assert AllSmallTiles(g[x]);
        }
      }
    }
    if GridSmallTiles(t) {
      forall x | 0 <= x < |g| ensures AllSmallTiles(g[x]) {
        forall y | 0 <= y < |g| ensures IsSmallTile(g[x][y]) {
          assert AllSmallTiles(t[y]);
        }
      }
    }
  }

  // ---------------------------------------------------------------------
  // Moves in the four directions
  // ---------------------------------------------------------------------

  /** Down and Right slide towards the end of the line. */
  predicate Flips(d: Direction) {
    d == Down || d == Right
  }

  /** Up and Down move the columns; Left and Right the rows. */
  predicate Vertical(d: Direction) {
    d == Up || d == Down
  }

  /** Line `i` as direction `d` moves it: column `i`, or row `i`. */
  function LineOf(g: seq<seq<int>>, d: Direction, i: nat): (line: seq<int>)
    requires IsGrid(g) && i < |g|
    ensures |line| == |g|
    ensures forall j :: 0 <= j < |g| ==> line[j] == CellOf(g, d, i, j)
  {
    if Vertical(d) then g[i] else Transpose(g)[i]
  }

  /** Cell `j` of line `i` as direction `d` walks the grid. */
  function CellOf(g: seq<seq<int>>, d: Direction, i: nat, j: nat): int
    requires IsGrid(g) && i < |g| && j < |g|
  {
    if Vertical(d) then g[i][j] else g[j][i]
  }

  /** The lines direction `d` hands to the line operation. */
  function LinesOf(g: seq<seq<int>>, d: Direction): (t: seq<seq<int>>)
    requires IsGrid(g)
    ensures IsGrid(t) && |t| == |g|
  {
    if Vertical(d) then g else Transpose(g)
  }

  /**
   A move in direction `d` is the line move of every column (Up, Down)
   or every row (Left, Right), towards the end of the line for Down and
   Right. It fails exactly when one of the line moves does, and its score
   is the score of the last line: the last column, or the bottom row.
   */
  lemma MoveGridByLines(g: seq<seq<int>>, d: Direction)
    requires IsGrid(g)
    ensures MoveGrid(g, d).Some? <==> forall i :: 0 <= i < |g| ==> MoveLine(LineOf(g, d, i), Flips(d)).Some?
    ensures MoveGrid(g, d).Some? ==> forall i, j :: 0 <= i < |g| && 0 <= j < |g| ==>
      MoveLine(LineOf(g, d, i), Flips(d)).Some? &&
      CellOf(MoveGrid(g, d).value.grid, d, i, j) == MoveLine(LineOf(g, d, i), Flips(d)).value.line[j]
    ensures MoveGrid(g, d).Some? ==>
      MoveGrid(g, d).value.score == MoveLine(LineOf(g, d, |g| - 1), Flips(d)).value.score
  {
    LineMovesAreMoveLines(g, d);
    MoveGridSucceedsByLines(g, d);
    if MoveGrid(g, d).Some? {
      MoveGridCellsByLines(g, d);
    }
  }

  /** The line operation, applied to the lines of `LinesOf`, is `MoveLine` on `LineOf`. */
  lemma LineMovesAreMoveLines(g: seq<seq<int>>, d: Direction)
    requires IsGrid(g)
    ensures forall i :: 0 <= i < |g| ==>
      LineMove(Flips(d))(LinesOf(g, d)[i]) == MoveLine(LineOf(g, d, i), Flips(d))
  {
    var src := LinesOf(g, d);
    forall i | 0 <= i < |g| ensures LineMove(Flips(d))(src[i]) == MoveLine(LineOf(g, d, i), Flips(d)) {
      assert src[i] == LineOf(g, d, i);
    }
  }

  lemma MoveGridSucceedsByLines(g: seq<seq<int>>, d: Direction)
    requires IsGrid(g)
    ensures MoveGrid(g, d).Some? <==> forall i :: 0 <= i < |g| ==> LineMove(Flips(d))(LinesOf(g, d)[i]).Some?
  {
    MoveLinesLinewise(LinesOf(g, d), |g|, LineMove(Flips(d)));
    MoveGridIsMoveLines(g, d);
  }

  lemma MoveGridCellsByLines(g: seq<seq<int>>, d: Direction)
    requires IsGrid(g) && MoveGrid(g, d).Some?
    ensures forall i :: 0 <= i < |g| ==> LineMove(Flips(d))(LinesOf(g, d)[i]).Some?
    ensures forall i, j :: 0 <= i < |g| && 0 <= j < |g| ==>
      CellOf(MoveGrid(g, d).value.grid, d, i, j) == LineMove(Flips(d))(LinesOf(g, d)[i]).value.line[j]
    ensures LineMove(Flips(d))(LinesOf(g, d)[|g| - 1]).Some? &&
      MoveGrid(g, d).value.score == LineMove(Flips(d))(LinesOf(g, d)[|g| - 1]).value.score
  {
    MoveLinesLinewise(LinesOf(g, d), |g|, LineMove(Flips(d)));
    MoveGridIsMoveLines(g, d);
  }

  /** A move is the loop over the lines of `LinesOf`, read back through `CellOf`. */
  lemma MoveGridIsMoveLines(g: seq<seq<int>>, d: Direction)
    requires IsGrid(g)
    ensures var r := MoveLines(LinesOf(g, d), |g|, LineMove(Flips(d)));
      (MoveGrid(g, d).Some? <==> r.Some?) &&
      (r.Some? ==> MoveGrid(g, d).value.score == r.value.score) &&
      (r.Some? ==> forall i, j :: 0 <= i < |g| && 0 <= j < |g| ==>
         CellOf(MoveGrid(g, d).value.grid, d, i, j) == r.value.grid[i][j])
  {
    if Vertical(d) {
      assert MoveGrid(g, d) == MoveLines(g, |g|, LineMove(Flips(d)));
    } else {
      TransposedMoveIsMoveLines(g, d);
    }
  }

  /** A horizontal move is the loop over the rows, transposed back. */
  lemma TransposedMoveIsMoveLines(g: seq<seq<int>>, d: Direction)
    requires IsGrid(g) && !Vertical(d)
    ensures var r := MoveLines(Transpose(g), |g|, LineMove(Flips(d)));
      MoveGrid(g, d) == TransposeMoved(r) &&
      (r.Some? ==> forall i, j :: 0 <= i < |g| && 0 <= j < |g| ==>
         CellOf(MoveGrid(g, d).value.grid, d, i, j) == r.value.grid[i][j])
  {
    var r := MoveLines(Transpose(g), |g|, LineMove(Flips(d)));
    assert MoveGrid(g, d) == TransposeMoved(r);
    if r.Some? {
      var t := Transpose(r.value.grid);
      assert MoveGrid(g, d).value.grid == t;
      forall i, j | 0 <= i < |g| && 0 <= j < |g| ensures CellOf(t, d, i, j) == r.value.grid[i][j] {
        assert CellOf(t, d, i, j) == t[j][i];
      }
    }
  }

  /** Every move keeps the sum of all cells. */
  lemma MoveGridKeepsSum(g: seq<seq<int>>, d: Direction)
    requires IsGrid(g)
    requires MoveGrid(g, d).Some?
    ensures GridSum(MoveGrid(g, d).value.grid) == GridSum(g)
  {
    var mv := LineMove(Flips(d));
    var src := LinesOf(g, d);
    LineMoveFacts(Flips(d));
    MoveLinesKeepSum(src, |g|, mv);
    if !Vertical(d) {
      var m := MoveLines(src, |g|, mv).value;
      GridSumTranspose(g, |g|);
      GridSumTranspose(m.grid, |g|);
    }
  }

  /** The score a move reports is never negative. */
  lemma MoveGridScoreNonNegative(g: seq<seq<int>>, d: Direction)
    requires IsGrid(g)
    requires MoveGrid(g, d).Some?
    ensures MoveGrid(g, d).value.score >= 0
  {
    var mv := LineMove(Flips(d));
    LineMoveFacts(Flips(d));
    MoveLinesLinewise(LinesOf(g, d), |g|, mv);
  }

  /** A move that changes the grid leaves an empty cell in it. */
  lemma MoveGridChangeLeavesEmptyCell(g: seq<seq<int>>, d: Direction)
    requires IsGrid(g)
    requires MoveGrid(g, d).Some? && MoveGrid(g, d).value.grid != g
    ensures HasEmpty(MoveGrid(g, d).value.grid)
  {
    var mv := LineMove(Flips(d));
    var src := LinesOf(g, d);
    LineMoveFacts(Flips(d));
    var m := MoveLines(src, |g|, mv).value;
    if Vertical(d) {
      MoveLinesChangeLeavesEmptyCell(src, |g|, mv);
    } else {
      TransposeInvolution(g);
      assert m.grid != src;
      MoveLinesChangeLeavesEmptyCell(src, |g|, mv);
      TransposeKeepsEmptyCells(m.grid);
    }
  }

  /**
   On a grid of vocabulary tiles no move fails; on one without the last
   vocabulary entry, every move also yields vocabulary tiles only.
   */
  lemma MoveGridOnTiles(g: seq<seq<int>>, d: Direction)
    requires IsGrid(g)
    ensures GridTiles(g) ==> MoveGrid(g, d).Some?
    ensures GridSmallTiles(g) ==> MoveGrid(g, d).Some? && GridTiles(MoveGrid(g, d).value.grid)
  {
    var mv := LineMove(Flips(d));
    var src := LinesOf(g, d);
    LineMoveFacts(Flips(d));
    TransposeKeepsTiles(g);
    TransposeKeepsSmallTiles(g);
    MoveLinesAcceptTiles(src, |g|, mv);
    if !Vertical(d) && GridSmallTiles(g) {
      TransposeKeepsTiles(MoveLines(src, |g|, mv).value.grid);
    }
  }

  /**
   No-op detection: a move leaves the grid unchanged exactly when every
   line it moves is already stacked with no pair that merges; such a move
   scores nothing.
   */
  lemma MoveGridUnchangedIff(g: seq<seq<int>>, d: Direction)
    requires IsGrid(g)
    ensures (MoveGrid(g, d).Some? && MoveGrid(g, d).value.grid == g) <==>
      forall i :: 0 <= i < |g| ==> Settled(Orient(LineOf(g, d, i), Flips(d)))
    ensures MoveGrid(g, d).Some? && MoveGrid(g, d).value.grid == g ==> MoveGrid(g, d).value.score == 0
  {
    var mv := LineMove(Flips(d));
    var src := LinesOf(g, d);
    MoveGridUnchangedByLines(g, d);
    MoveLinesUnchanged(src, |g|, mv);
    LineMovesAreMoveLines(g, d);
    forall i | 0 <= i < |g|
      ensures (mv(src[i]).Some? && mv(src[i]).value.line == src[i]) <==> Settled(Orient(LineOf(g, d, i), Flips(d)))
      ensures Settled(Orient(LineOf(g, d, i), Flips(d))) ==> mv(src[i]).value.score == 0
    {
      assert src[i] == LineOf(g, d, i);
      MoveLineUnchangedIff(src[i], Flips(d));
    }
    if MoveGrid(g, d).Some? && MoveGrid(g, d).value.grid == g {
      MoveGridCellsByLines(g, d);
    }
  }

  /** The grid is left alone exactly when the loop leaves the lines of `LinesOf` alone. */
  lemma MoveGridUnchangedByLines(g: seq<seq<int>>, d: Direction)
    requires IsGrid(g)
    ensures var r := MoveLines(LinesOf(g, d), |g|, LineMove(Flips(d)));
      (MoveGrid(g, d).Some? && MoveGrid(g, d).value.grid == g) <==> (r.Some? && r.value.grid == LinesOf(g, d))
  {
    var r := MoveLines(LinesOf(g, d), |g|, LineMove(Flips(d)));
    if !Vertical(d) && r.Some? {
      TransposeInvolution(g);
      TransposeInvolution(r.value.grid);
      assert MoveGrid(g, d).value.grid == Transpose(r.value.grid);
    }
  }

  /**
   The score of a move is reassigned by every line: the merge of two 1s in
   the first column is overwritten by the empty last column, so the move
   reports no points.
   */
  lemma ScoreOfLastLineOnly()
    ensures MoveGrid([[1, 1], [0, 0]], Up) == Some(Moved([[2, 0], [0, 0]], 0))
  {
    var mv := LineMove(false);
    OnesMoveUp();
    EmptyLineMovesUp();
    var g: seq<seq<int>> := [[1, 1], [0, 0]];
    var first := g[..1];
    assert first == [[1, 1]] && first[..0] == [] && first[0] == [1, 1];
    assert KeepsLength(mv) && Rect(first, 2) && Rect(g, 2);
    var none: seq<seq<int>> := [];
    assert none + [[2, 0]] == [[2, 0]];
    assert MoveLines(first, 2, mv) == Some(Moved([[2, 0]], 2));
    assert [[2, 0]] + [[0, 0]] == [[2, 0], [0, 0]];
    assert g[1] == [0, 0];
  }

  /** Moving `[1, 1]` up merges it into `[2, 0]` for 2 points. */
  lemma OnesMoveUp()
    ensures LineMove(false)([1, 1]) == Some(Combined([2, 0], 2))
  {
    assert Stack([1, 1]) == [1, 1] by {
      assert [1, 1][1..] == [1];
    }
    OnesMerge();
    assert [1, 1][0 := 2][1 := 0] == [2, 0];
    assert CombineFrom([2, 0], 1) == Some(Combined([2, 0], 0));
    assert Combine([1, 1]) == Some(Combined([2, 0], 2));
    assert Stack([2, 0]) == [2, 0] by {
      assert [2, 0][1..] == [0];
    }
    assert Slide([1, 1]) == Some(Combined([2, 0], 2));
  }

  /** Moving an empty line of two cells leaves it alone for no points. */
  lemma EmptyLineMovesUp()
    ensures LineMove(false)([0, 0]) == Some(Combined([0, 0], 0))
  {
    assert Stack([0, 0]) == [0, 0] by {
      assert [0, 0][1..] == [0];
    }
    assert CombineFrom([0, 0], 1) == Some(Combined([0, 0], 0));
    assert Combine([0, 0]) == Some(Combined([0, 0], 0));
    assert Slide([0, 0]) == Some(Combined([0, 0], 0));
  }

  /**
   Left and Right on the transposed grid are Up and Down, transposed.
   This is the definition of `MoveGrid` read back through
   `TransposeInvolution`; the cell-by-cell content is `MoveGridByLines`.
   */
  lemma HorizontalIsTransposedVertical(g: seq<seq<int>>)
    requires IsGrid(g)
    ensures MoveGrid(Transpose(g), Left) == TransposeMoved(MoveGrid(g, Up))
    ensures MoveGrid(Transpose(g), Right) == TransposeMoved(MoveGrid(g, Down))
  {
    TransposeInvolution(g);
  }

  /**
   Up and Down on the transposed grid are Left and Right, transposed.
   Like the lemma above, this is definitional.
   */
  lemma VerticalIsTransposedHorizontal(g: seq<seq<int>>)
    requires IsGrid(g)
    ensures MoveGrid(Transpose(g), Up) == TransposeMoved(MoveGrid(g, Left))
    ensures MoveGrid(Transpose(g), Down) == TransposeMoved(MoveGrid(g, Right))
  {
    var up := MoveLines(Transpose(g), |g|, LineMove(false));
    var down := MoveLines(Transpose(g), |g|, LineMove(true));
    if up.Some? {
      TransposeInvolution(up.value.grid);
    }
    if down.Some? {
      TransposeInvolution(down.value.grid);
    }
  }
}

=== FILE: lines.dfy ===
/**
 The one-dimensional routines of `ThreesGame`: `stack_col` compacts a line
 towards its front, `combine_col` makes one left-to-right merge pass, and
 a line move is stack, combine, stack, optionally on the reversed line.
 */
module Lines {
  import opened Options
  import opened Vocabulary
  import opened Sums

  /** A line after a merge pass, with the points the merges earned. */
  datatype Combined = Combined(line: seq<int>, score: int)

  /** The number of empty cells in `s`. */
  function ZeroCount(s: seq<int>): nat {
    if |s| == 0 then 0 else (if s[0] == 0 then 1 else 0) + ZeroCount(s[1..])
  }

  lemma {:induction false} ZeroCountIsMultiplicity(s: seq<int>)
    ensures ZeroCount(s) == multiset(s)[0]
    decreases |s|
  {
    if |s| > 0 {
      assert s == [s[0]] + s[1..];
      ZeroCountIsMultiplicity(s[1..]);
    }
  }

  /** Every cell of `s` is empty or a vocabulary value. */
  predicate AllTiles(s: seq<int>) {
    forall k :: 0 <= k < |s| ==> IsTile(s[k])
  }

  /** Every cell of `s` is empty or a vocabulary value other than the last. */
  predicate AllSmallTiles(s: seq<int>) {
    forall k :: 0 <= k < |s| ==> IsSmallTile(s[k])
  }

  predicate NonNegative(s: seq<int>) {
    forall k :: 0 <= k < |s| ==> s[k] >= 0
  }

  /** No empty cell is followed by an occupied one. */
  predicate ZerosTrail(s: seq<int>) {
    forall i, j :: 0 <= i < j < |s| && s[i] == 0 ==> s[j] == 0
  }

  // ---------------------------------------------------------------------
  // Stacking
  // ---------------------------------------------------------------------

  /** The occupied cells of `s`, in their original order. */
  function NonZeros(s: seq<int>): (r: seq<int>)
    ensures forall k :: 0 <= k < |r| ==> r[k] != 0
    ensures |r| == |s| - ZeroCount(s)
  {
    if |s| == 0 then []
    else (if s[0] == 0 then [] else [s[0]]) + NonZeros(s[1..])
  }

  /** `NonZeros` keeps every occupied cell, as often as it occurs. */
  lemma {:induction false} NonZerosMultiset(s: seq<int>)
    ensures multiset(NonZeros(s)) == multiset(s)[0 := 0]
    decreases |s|
  {
    if |s| > 0 {
      assert s == [s[0]] + s[1..];
      NonZerosMultiset(s[1..]);
    }
  }

  /** A run of `n` empty cells. */
  function Zeros(n: nat): (r: seq<int>)
    ensures |r| == n
    ensures forall k :: 0 <= k < n ==> r[k] == 0
  {
    seq(n, _ => 0)
  }

  lemma {:induction false} ZerosMultiset(n: nat)
    ensures multiset(Zeros(n)) == multiset{}[0 := n]
    ensures multiset(Zeros(n))[0] == n
    decreases n
  {
    if n > 0 {
      assert Zeros(n) == Zeros(n - 1) + [0];
      ZerosMultiset(n - 1);
    }
  }

  /** `stack_col`: moves the empty cells of a line to its end. */
  function Stack(col: seq<int>): (r: seq<int>)
    requires |col| >= 1
    ensures |r| == |col|
    decreases |col|
  {
    if |col| == 1 then col
    else if col[0] == 0 then Stack(col[1..]) + [0]
    else col[..1] + Stack(col[1..])
  }

  /**
   Stacking is a stable partition: the occupied cells in their original
   order, followed by as many empty cells as the line had.
   */
  lemma {:induction false} StackIsFilter(col: seq<int>)
    requires |col| >= 1
    ensures Stack(col) == NonZeros(col) + Zeros(ZeroCount(col))
    decreases |col|
  {
    var rest := col[1..];
    if |col| == 1 {
      assert rest == [];
      assert NonZeros(col) == (if col[0] == 0 then [] else [col[0]]) + NonZeros(rest);
    } else {
      StackIsFilter(rest);
      var z := ZeroCount(rest);
      if col[0] == 0 {
        assert NonZeros(col) == NonZeros(rest);
        assert ZeroCount(col) == z + 1;
        assert Zeros(z) + [0] == Zeros(z + 1);
        calc {
          Stack(col);
          Stack(rest) + [0];
          (NonZeros(rest) + Zeros(z)) + [0];
          NonZeros(rest) + (Zeros(z) + [0]);
        }
      } else {
        assert NonZeros(col) == [col[0]] + NonZeros(rest);
        assert ZeroCount(col) == z;
        assert col[..1] == [col[0]];
        calc {
          Stack(col);
          col[..1] + Stack(rest);
          [col[0]] + (NonZeros(rest) + Zeros(z));
          ([col[0]] + NonZeros(rest)) + Zeros(z);
        }
      }
    }
  }

  /** Stacking only reorders the cells. */
  lemma StackPermutes(col: seq<int>)
    requires |col| >= 1
    ensures multiset(Stack(col)) == multiset(col)
  {
    var z := ZeroCount(col);
    StackIsFilter(col);
    ZerosMultiset(z);
    NonZerosMultiset(col);
    ZeroCountIsMultiplicity(col);
    assert multiset(Stack(col)) == multiset(NonZeros(col)) + multiset(Zeros(z));
  }

  /** Stacking keeps the length, the number of empty cells and the sum. */
  lemma StackKeeps(col: seq<int>)
    requires |col| >= 1
    ensures |Stack(col)| == |col|
    ensures ZeroCount(Stack(col)) == ZeroCount(col)
    ensures Sum(Stack(col)) == Sum(col)
  {
    StackPermutes(col);
    ZeroCountIsMultiplicity(col);
    ZeroCountIsMultiplicity(Stack(col));
    SumOfPermutation(Stack(col), col);
  }

  /** After stacking, the empty cells trail. */
  lemma StackTrails(col: seq<int>)
    requires |col| >= 1
    ensures ZerosTrail(Stack(col))
  {
    var nz := NonZeros(col);
    var r := Stack(col);
    StackIsFilter(col);
    forall i, j | 0 <= i < j < |r| && r[i] == 0
      ensures r[j] == 0
    {
      assert i >= |nz|;
    }
  }

  lemma {:induction false} ZeroCountOfEmptyLine(s: seq<int>)
    requires forall k :: 0 <= k < |s| ==> s[k] == 0
    ensures ZeroCount(s) == |s|
    decreases |s|
  {
    if |s| > 0 {
      ZeroCountOfEmptyLine(s[1..]);
    }
  }

  /** A line with an empty cell: `k` locates one. */
  lemma {:induction false} EmptyCellOf(s: seq<int>) returns (k: nat)
    requires ZeroCount(s) > 0
    ensures k < |s| && s[k] == 0
    decreases |s|
  {
    if s[0] == 0 {
      k := 0;
    } else {
      var j := EmptyCellOf(s[1..]);
      k := j + 1;
    }
  }

  /** A line without empty cells. */
  lemma {:induction false} NoZeroCount(s: seq<int>)
    requires ZeroCount(s) == 0
    ensures forall k :: 0 <= k < |s| ==> s[k] != 0
    decreases |s|
  {
    if |s| > 0 {
      NoZeroCount(s[1..]);
      assert forall k :: 1 <= k < |s| ==> s[k] == s[1..][k - 1];
    }
  }

  /** A line whose empty cells already trail is its own non-zeros plus zeros. */
  lemma {:induction false} TrailingLineSplits(s: seq<int>)
    requires ZerosTrail(s)
    ensures s == NonZeros(s) + Zeros(ZeroCount(s))
    decreases |s|
  {
    if |s| > 0 {
      assert s == [s[0]] + s[1..];
      assert ZerosTrail(s[1..]);
      TrailingLineSplits(s[1..]);
      if s[0] == 0 {
        assert forall k :: 0 <= k < |s| ==> s[k] == 0;
        ZeroCountOfEmptyLine(s);
        assert s == Zeros(|s|);
      }
    }
  }

  /**
   Stacking leaves a line unchanged exactly when its empty cells already
   trail; in particular stacking is idempotent and a one-cell line is
   returned as it is.
   */
  lemma StackFixedPoints(col: seq<int>)
    requires |col| >= 1
    ensures Stack(col) == col <==> ZerosTrail(col)
    ensures Stack(Stack(col)) == Stack(col)
    ensures |col| == 1 ==> Stack(col) == col
  {
    StackTrails(col);
    StackIsFilter(col);
    if ZerosTrail(col) {
      TrailingLineSplits(col);
    }
    StackKeeps(col);
    StackIsFilter(Stack(col));
    TrailingLineSplits(Stack(col));
  }

  // ---------------------------------------------------------------------
  // Reversal
  // ---------------------------------------------------------------------

  /** `s[::-1]`. */
  function Reverse(s: seq<int>): (r: seq<int>)
    ensures |r| == |s|
    ensures forall k :: 0 <= k < |s| ==> r[k] == s[|s| - 1 - k]
  {
    if |s| == 0 then [] else [s[|s| - 1]] + Reverse(s[..|s| - 1])
  }

  lemma ReverseInvolution(s: seq<int>)
    ensures Reverse(Reverse(s)) == s
  {
  }

  lemma {:induction false} ReversePermutes(s: seq<int>)
    ensures multiset(Reverse(s)) == multiset(s)
    decreases |s|
  {
    if |s| > 0 {
      ReversePermutes(s[..|s| - 1]);
      assert s == s[..|s| - 1] + [s[|s| - 1]];
    }
  }

  /** Reversal keeps the number of empty cells, the sum and the signs. */
  lemma ReverseKeeps(s: seq<int>)
    ensures ZeroCount(Reverse(s)) == ZeroCount(s)
    ensures Sum(Reverse(s)) == Sum(s)
    ensures NonNegative(s) ==> NonNegative(Reverse(s))
  {
    ReversePermutes(s);
    ZeroCountIsMultiplicity(s);
    ZeroCountIsMultiplicity(Reverse(s));
    SumOfPermutation(Reverse(s), s);
  }

  // ---------------------------------------------------------------------
  // The merge pass
  // ---------------------------------------------------------------------

  /** Every pair from position `i` on is left alone by the pair test. */
  predicate AllKeepFrom(cur: seq<int>, i: nat) {
    forall k :: i <= k < |cur| - 1 ==> PairRuleOf(cur[k], cur[k + 1]) == Keep
  }

  /**
   The cells of `r` that differ from `a`, at their new values (an emptied
   cell contributes nothing).
   */
  function Written(a: seq<int>, r: seq<int>): (w: seq<int>)
    requires |a| == |r|
    ensures |w| == |r|
    ensures forall k :: 0 <= k < |r| ==> w[k] == (if r[k] != a[k] then r[k] else 0)
  {
    seq(|r|, k requires 0 <= k < |r| => if r[k] != a[k] then r[k] else 0)
  }

  /**
   The loop of `combine_col` from pair (i, i + 1) on. `None` stands for
   the ValueError that `numbers.index` raises on a tile outside the
   vocabulary. The score is the points earned from pair `i` on.
   */
  function CombineFrom(cur: seq<int>, i: nat): (r: Option<Combined>)
    requires i <= |cur|
    ensures r.Some? ==> |r.value.line| == |cur| && r.value.line[..i] == cur[..i]
    decreases |cur| - i
  {
    if i + 1 >= |cur| then Some(Combined(cur, 0))
    else match PairRuleOf(cur[i], cur[i + 1])
      case Keep => CombineFrom(cur, i + 1)
      case BadTile => None
      case Merge(v) =>
        match CombineFrom(cur[i := v][i + 1 := 0], i + 1)
        case None => None
        case Some(c) => Some(Combined(c.line, v + c.score))
  }

  /** `combine_col`: one merge pass over the whole line. */
  function Combine(line: seq<int>): Option<Combined> {
    CombineFrom(line, 0)
  }

  /** A merge never touches an empty right-hand cell again. */
  lemma CombineKeepsEmptyCell(cur: seq<int>, i: nat)
    requires i < |cur| && cur[i] == 0
    requires CombineFrom(cur, i).Some?
    ensures CombineFrom(cur, i).value.line[i] == 0
  {
    if i + 1 < |cur| {
      assert PairRuleOf(cur[i], cur[i + 1]) == Keep;
      assert CombineFrom(cur, i) == CombineFrom(cur, i + 1);
      assert CombineFrom(cur, i + 1).value.line[..i + 1][i] == cur[..i + 1][i];
    }
  }

  /** Merging keeps the line's sum. */
  lemma {:induction false} CombineKeepsSum(cur: seq<int>, i: nat)
    requires i <= |cur|
    requires CombineFrom(cur, i).Some?
    ensures Sum(CombineFrom(cur, i).value.line) == Sum(cur)
    decreases |cur| - i
  {
    if i + 1 < |cur| {
      match PairRuleOf(cur[i], cur[i + 1])
      case Keep => CombineKeepsSum(cur, i + 1);
      case Merge(v) =>
        var next := cur[i := v][i + 1 := 0];
        CombineKeepsSum(next, i + 1);
        SumUpdate(cur, i, v);
        SumUpdate(cur[i := v], i + 1, 0);
    }
  }

  /**
   The score of a merge pass is the sum of the values the merges wrote:
   the cells that changed, at their new values. It is never negative.
   */
  lemma {:induction false} CombineScoreIsWrittenSum(cur: seq<int>, i: nat)
    requires i <= |cur|
    requires CombineFrom(cur, i).Some?
    ensures CombineFrom(cur, i).value.score == Sum(Written(cur, CombineFrom(cur, i).value.line))
    ensures CombineFrom(cur, i).value.score >= 0
    decreases |cur| - i
  {
    var r := CombineFrom(cur, i).value;
    if i + 1 >= |cur| {
      SumOfZeros(Written(cur, r.line));
    } else {
      match PairRuleOf(cur[i], cur[i + 1])
      case Keep => CombineScoreIsWrittenSum(cur, i + 1);
      case Merge(v) =>
        var next := cur[i := v][i + 1 := 0];
        CombineScoreIsWrittenSum(next, i + 1);
        CombineKeepsEmptyCell(next, i + 1);
        NumbersIncrease();
        assert r.line[..i + 1][i] == next[..i + 1][i];
        assert cur[i + 1] > 0 && cur[i] > 0;
        assert Written(cur, r.line) == Written(next, r.line)[i := v];
        SumUpdate(Written(next, r.line), i, v);
    }
  }

  /** A pass that changes the line adds at least one empty cell. */
  lemma {:induction false} CombineAddsZeros(cur: seq<int>, i: nat)
    requires i <= |cur|
    requires CombineFrom(cur, i).Some?
    ensures CombineFrom(cur, i).value.line == cur || ZeroCount(CombineFrom(cur, i).value.line) > ZeroCount(cur)
    decreases |cur| - i
  {
    if i + 1 < |cur| {
      match PairRuleOf(cur[i], cur[i + 1])
      case Keep => CombineAddsZeros(cur, i + 1);
      case Merge(v) =>
        var next := cur[i := v][i + 1 := 0];
        CombineAddsZeros(next, i + 1);
        NumbersIncrease();
        assert cur[i] > 0 && cur[i + 1] > 0;
        ZeroCountIsMultiplicity(cur);
        ZeroCountIsMultiplicity(next);
        assert ZeroCount(next) == ZeroCount(cur) + 1;
    }
  }

  /** A pass in which every visited pair is left alone changes nothing and scores nothing. */
  lemma {:induction false} CombineOfKeptPairs(cur: seq<int>, i: nat)
    requires i <= |cur|
    requires AllKeepFrom(cur, i)
    ensures CombineFrom(cur, i) == Some(Combined(cur, 0))
    decreases |cur| - i
  {
    if i + 1 < |cur| {
      CombineOfKeptPairs(cur, i + 1);
    }
  }

  /** A pass that leaves the line unchanged met no merging pair. */
  lemma {:induction false} UnchangedCombineKeptPairs(cur: seq<int>, i: nat)
    requires i <= |cur|
    requires CombineFrom(cur, i).Some? && CombineFrom(cur, i).value.line == cur
    ensures AllKeepFrom(cur, i)
    decreases |cur| - i
  {
    if i + 1 < |cur| {
      match PairRuleOf(cur[i], cur[i + 1])
      case Keep =>
        UnchangedCombineKeptPairs(cur, i + 1);
      case Merge(_) =>
        assert false;
    }
  }

  /** On a line of vocabulary tiles the lookups never fail. */
  lemma {:induction false} CombineSucceedsOnTiles(cur: seq<int>, i: nat)
    requires i <= |cur|
    requires forall k :: i <= k < |cur| ==> IsTile(cur[k])
    ensures CombineFrom(cur, i).Some?
    decreases |cur| - i
  {
    if i + 1 < |cur| {
      match PairRuleOf(cur[i], cur[i + 1])
      case Keep => CombineSucceedsOnTiles(cur, i + 1);
      case Merge(v) => CombineSucceedsOnTiles(cur[i := v][i + 1 := 0], i + 1);
    }
  }

  /**
   A pass over tiles that are not the last vocabulary entry writes only
   vocabulary values.
   */
  lemma {:induction false} CombineStaysInVocabulary(cur: seq<int>, i: nat)
    requires i <= |cur|
    requires AllTiles(cur)
    requires forall k :: i <= k < |cur| ==> IsSmallTile(cur[k])
    ensures CombineFrom(cur, i).Some?
    ensures AllTiles(CombineFrom(cur, i).value.line)
    decreases |cur| - i
  {
    CombineSucceedsOnTiles(cur, i);
    if i + 1 < |cur| {
      match PairRuleOf(cur[i], cur[i + 1])
      case Keep => CombineStaysInVocabulary(cur, i + 1);
      case Merge(v) =>
        MergeOfSmallTiles(cur[i], cur[i + 1]);
        CombineStaysInVocabulary(cur[i := v][i + 1 := 0], i + 1);
    }
  }

  /** A pass over non-negative cells writes non-negative cells. */
  lemma {:induction false} CombineKeepsNonNegative(cur: seq<int>, i: nat)
    requires i <= |cur|
    requires NonNegative(cur)
    requires CombineFrom(cur, i).Some?
    ensures NonNegative(CombineFrom(cur, i).value.line)
    decreases |cur| - i
  {
    if i + 1 < |cur| {
      match PairRuleOf(cur[i], cur[i + 1])
      case Keep => CombineKeepsNonNegative(cur, i + 1);
      case Merge(v) => CombineKeepsNonNegative(cur[i := v][i + 1 := 0], i + 1);
    }
  }

  /**
   The properties of one `combine_col` call: same length and sum, score
   equal to the merged values written, between zero and the line sum when
   the cells are non-negative, and an unchanged line exactly when no pair
   merges.
   */
  lemma CombineSummary(line: seq<int>)
    requires Combine(line).Some?
    ensures |Combine(line).value.line| == |line|
    ensures Sum(Combine(line).value.line) == Sum(line)
    ensures Combine(line).value.score == Sum(Written(line, Combine(line).value.line))
    ensures 0 <= Combine(line).value.score
    ensures NonNegative(line) ==> Combine(line).value.score <= Sum(line)
    ensures Combine(line).value.line == line <==> AllKeepFrom(line, 0)
  {
    var c := Combine(line).value;
    CombineKeepsSum(line, 0);
    CombineScoreIsWrittenSum(line, 0);
    if c.line == line {
      UnchangedCombineKeptPairs(line, 0);
    }
    if AllKeepFrom(line, 0) {
      CombineOfKeptPairs(line, 0);
    }
    if NonNegative(line) {
      CombineKeepsNonNegative(line, 0);
      SumMonotone(Written(line, c.line), c.line);
    }
  }

  /** Merges do not cascade: of three 1s only the first two merge. */
  lemma CombineDoesNotCascade()
    ensures Combine([1, 1, 1, 0]) == Some(Combined([2, 0, 1, 0], 2))
  {
    OnesMerge();
    var next := [1, 1, 1, 0][0 := 2][1 := 0];
    assert next == [2, 0, 1, 0];
    assert AllKeepFrom(next, 1) by {
      assert PairRuleOf(next[1], next[2]) == Keep;
      assert PairRuleOf(next[2], next[3]) == Keep;
    }
    CombineOfKeptPairs(next, 1);
  }

  /** After the pass, restacking closes the gap: [1, 1, 1, 0] slides to [2, 1, 0, 0]. */
  lemma SlideDoesNotCascade()
    ensures Slide([1, 1, 1, 0]) == Some(Combined([2, 1, 0, 0], 2))
  {
    CombineDoesNotCascade();
    assert Stack([1, 1, 1, 0]) == [1, 1, 1, 0] by {
      StackFixedPoints([1, 1, 1, 0]);
    }
    var mid := [2, 0, 1, 0];
    assert NonZeros(mid) == [2, 1] by {
      assert mid[1..] == [0, 1, 0];
      assert mid[1..][1..] == [1, 0];
      assert mid[1..][1..][1..] == [0];
      assert NonZeros([0]) == [] by {
        assert [0][1..] == [];
      }
      assert NonZeros([1, 0]) == [1] by {
        assert [1, 0][1..] == [0];
      }
    }
    assert ZeroCount(mid) == 2;
    assert Zeros(2) == [0, 0];
    assert Stack(mid) == [2, 1, 0, 0];
  }

  // ---------------------------------------------------------------------
  // A line move
  // ---------------------------------------------------------------------

  /** Stack, combine, stack: what `move_to_direction` does to one line (maincode.py:184-186). */
  function Slide(line: seq<int>): (r: Option<Combined>)
    requires |line| >= 1
    ensures r.Some? ==> |r.value.line| == |line|
  {
    match Combine(Stack(line))
    case None => None
    case Some(c) => Some(Combined(Stack(c.line), c.score))
  }

  /** The line as the slide sees it: reversed when moving towards its end. */
  function Orient(line: seq<int>, flip: bool): seq<int> {
    if flip then Reverse(line) else line
  }

  /** A line move towards its front, or with `flip` towards its end. */
  function MoveLine(line: seq<int>, flip: bool): (r: Option<Combined>)
    requires |line| >= 1
    ensures r.Some? ==> |r.value.line| == |line|
  {
    match Slide(Orient(line, flip))
    case None => None
    case Some(c) => Some(Combined(Orient(c.line, flip), c.score))
  }

  /** A line the slide leaves alone: stacked, with no pair that merges. */
  predicate Settled(s: seq<int>) {
    ZerosTrail(s) && AllKeepFrom(s, 0)
  }

  lemma StackKeepsNonNegative(line: seq<int>)
    requires |line| >= 1
    requires NonNegative(line)
    ensures NonNegative(Stack(line))
  {
    var s := Stack(line);
    StackPermutes(line);
    forall k | 0 <= k < |s| ensures s[k] >= 0 {
      assert s[k] in multiset(line);
    }
  }

  /** A slide keeps the sum and never removes an empty cell. */
  lemma SlideKeepsSum(line: seq<int>)
    requires |line| >= 1
    requires Slide(line).Some?
    ensures Sum(Slide(line).value.line) == Sum(line)
    ensures ZeroCount(Slide(line).value.line) >= ZeroCount(line)
  {
    var s := Stack(line);
    var c := Combine(s).value;
    StackKeeps(line);
    StackKeeps(c.line);
    CombineKeepsSum(s, 0);
    CombineAddsZeros(s, 0);
  }

  /** A slide earns between zero and the line sum. */
  lemma SlideScoreBounds(line: seq<int>)
    requires |line| >= 1
    requires Slide(line).Some?
    ensures 0 <= Slide(line).value.score
    ensures NonNegative(line) ==> Slide(line).value.score <= Sum(line)
  {
    var s := Stack(line);
    StackKeeps(line);
    CombineSummary(s);
    if NonNegative(line) {
      StackKeepsNonNegative(line);
    }
  }

  /** A slide that changes the line leaves an empty cell in it. */
  lemma SlideChangeLeavesEmptyCell(line: seq<int>)
    requires |line| >= 1
    requires Slide(line).Some?
    requires Slide(line).value.line != line
    ensures ZeroCount(Slide(line).value.line) > 0
  {
    SlideKeepsSum(line);
    if ZeroCount(line) == 0 {
      var s := Stack(line);
      var c := Combine(s).value;
      NoZeroCount(line);
      StackFixedPoints(line);
      assert s == line;
      CombineAddsZeros(s, 0);
      StackKeeps(c.line);
    }
  }

  /** A slide that leaves the line unchanged met a settled line. */
  lemma UnchangedSlideIsSettled(line: seq<int>)
    requires |line| >= 1
    requires Slide(line).Some? && Slide(line).value.line == line
    ensures Settled(line)
  {
    var s := Stack(line);
    var c := Combine(s).value;
    StackKeeps(line);
    StackKeeps(c.line);
    StackFixedPoints(line);
    StackFixedPoints(c.line);
    CombineAddsZeros(s, 0);
    assert c.line == s;
    assert Stack(s) == s;
    assert s == line;
    UnchangedCombineKeptPairs(line, 0);
  }

  lemma SettledSlides(line: seq<int>)
    requires |line| >= 1
    requires Settled(line)
    ensures Slide(line) == Some(Combined(line, 0))
  {
    StackFixedPoints(line);
    CombineOfKeptPairs(line, 0);
  }

  /** A line move keeps the sum and never removes an empty cell. */
  lemma MoveLineKeepsSum(line: seq<int>, flip: bool)
    requires |line| >= 1
    requires MoveLine(line, flip).Some?
    ensures Sum(MoveLine(line, flip).value.line) == Sum(line)
    ensures ZeroCount(MoveLine(line, flip).value.line) >= ZeroCount(line)
  {
    var o := Orient(line, flip);
    var c := Slide(o).value;
    SlideKeepsSum(o);
    if flip {
      ReverseKeeps(line);
      ReverseKeeps(c.line);
    }
  }

  /** A line move earns between zero and the line sum. */
  lemma MoveLineScoreBounds(line: seq<int>, flip: bool)
    requires |line| >= 1
    requires MoveLine(line, flip).Some?
    ensures 0 <= MoveLine(line, flip).value.score
    ensures NonNegative(line) ==> MoveLine(line, flip).value.score <= Sum(line)
  {
    var o := Orient(line, flip);
    SlideScoreBounds(o);
    if flip {
      ReverseKeeps(line);
    }
  }

  /** A line move that changes the line leaves an empty cell in it. */
  lemma MoveLineChangeLeavesEmptyCell(line: seq<int>, flip: bool)
    requires |line| >= 1
    requires MoveLine(line, flip).Some?
    requires MoveLine(line, flip).value.line != line
    ensures ZeroCount(MoveLine(line, flip).value.line) > 0
  {
    var o := Orient(line, flip);
    var c := Slide(o).value;
    if flip {
      ReverseInvolution(line);
      ReverseInvolution(c.line);
      ReverseKeeps(c.line);
    }
    assert c.line != o;
    SlideChangeLeavesEmptyCell(o);
  }

  /**
   No-op detection: a line move leaves the line unchanged, scoring
   nothing, exactly when the oriented line is stacked and has no pair
   that merges.
   */
  lemma MoveLineUnchangedIff(line: seq<int>, flip: bool)
    requires |line| >= 1
    ensures Settled(Orient(line, flip)) ==> MoveLine(line, flip) == Some(Combined(line, 0))
    ensures MoveLine(line, flip).Some? && MoveLine(line, flip).value.line == line ==> Settled(Orient(line, flip))
  {
    var o := Orient(line, flip);
    ReverseInvolution(line);
    if Settled(o) {
      SettledSlides(o);
    }
    if MoveLine(line, flip).Some? && MoveLine(line, flip).value.line == line {
      var c := Slide(o).value;
      if flip {
        ReverseInvolution(c.line);
        assert c.line == Reverse(line);
      }
      UnchangedSlideIsSettled(o);
    }
  }

  /** On a line of vocabulary tiles a line move never fails. */
  lemma MoveLineSucceedsOnTiles(line: seq<int>, flip: bool)
    requires |line| >= 1
    requires AllTiles(line)
    ensures MoveLine(line, flip).Some?
  {
    var o := Orient(line, flip);
    assert AllTiles(o);
    var s := Stack(o);
    StackPermutes(o);
    assert forall k :: 0 <= k < |s| ==> IsTile(s[k]) by {
      forall k | 0 <= k < |s| ensures IsTile(s[k]) {
        assert s[k] in multiset(o);
      }
    }
    CombineSucceedsOnTiles(s, 0);
  }

  /**
   A line move over tiles other than the last vocabulary entry never
   fails and produces vocabulary tiles only.
   */
  lemma MoveLineStaysInVocabulary(line: seq<int>, flip: bool)
    requires |line| >= 1
    requires AllSmallTiles(line)
    ensures MoveLine(line, flip).Some?
    ensures AllTiles(MoveLine(line, flip).value.line)
  {
    var o := Orient(line, flip);
    assert AllSmallTiles(o);
    var s := Stack(o);
    StackPermutes(o);
    assert forall k :: 0 <= k < |s| ==> IsSmallTile(s[k]) by {
      forall k | 0 <= k < |s| ensures IsSmallTile(s[k]) {
        assert s[k] in multiset(o);
      }
    }
    CombineStaysInVocabulary(s, 0);
    var c := Combine(s).value;
    StackPermutes(c.line);
    var t := Stack(c.line);
    assert AllTiles(t) by {
      forall k | 0 <= k < |t| ensures IsTile(t[k]) {
        assert t[k] in multiset(c.line);
      }
    }
  }
}

=== FILE: options.dfy ===
/** An optional value: `None` where the program raises or finds nothing. */
module Options {

  datatype Option<T> = None | Some(value: T)
}

=== FILE: play.dfy ===
/**
 Play from a freshly built game never meets the lookup failure of
 `combine_col`, for a caller that stops moving at the first `Won` or
 `Lost`.

 Merges only ever produce the entry after the larger of the two tiles, and
 `add_tile` raises `Won` as soon as the winning tile appears. So until
 then every tile is in bound: below the winning entry, or a 2 when the
 winning tile is 1 (two 2s never merge). The one merge that leaves the
 vocabulary (1597 with 2584) cannot happen. The engine does not refuse a
 move after a win (`move` never reads `finished`), and the UI's exception
 handlers only clear `running` (maincode.py:348-375), so the key events
 left in the same batch still reach `move`; `PlayGoesOnAfterWin` shows
 such a move leaving the bound.
 */
module Play {
  import opened Options
  import opened Vocabulary
  import opened Lines
  import opened Grids
  import opened Game

  /** The highest entry a move can produce when the winning tile is entry `p`. */
  function Bound(p: nat): nat {
    if p == 0 then 1 else p
  }

  /** A value a move of a game in play can write. */
  predicate Reached(v: int, p: nat) {
    v == 0 || (IndexOf(v).Some? && IndexOf(v).value <= Bound(p))
  }

  /** A value on the grid of a game in play: reachable, and not the winning tile. */
  predicate Allowed(v: int, p: nat) {
    v == 0 || (IndexOf(v).Some? && IndexOf(v).value <= Bound(p) && IndexOf(v).value != p)
  }

  predicate LineAllowed(s: seq<int>, p: nat) {
    forall k :: 0 <= k < |s| ==> Allowed(s[k], p)
  }

  predicate LineReached(s: seq<int>, p: nat) {
    forall k :: 0 <= k < |s| ==> Reached(s[k], p)
  }

  predicate GridAllowed(g: seq<seq<int>>, p: nat) {
    forall x, y :: 0 <= x < |g| && 0 <= y < |g[x]| ==> Allowed(g[x][y], p)
  }

  predicate GridReached(g: seq<seq<int>>, p: nat) {
    forall x, y :: 0 <= x < |g| && 0 <= y < |g[x]| ==> Reached(g[x][y], p)
  }

  /** A game in play: a square grid whose tiles all lie below the winning tile, or are 2s when it is 1. */
  predicate InPlay(game: ThreesGame) {
    IsGrid(game.grid) && IndexOf(game.maxValue).Some? && GridAllowed(game.grid, IndexOf(game.maxValue).value)
  }

  // ---------------------------------------------------------------------
  // One merge, one line
  // ---------------------------------------------------------------------

  /** A tile allowed in play is never the last vocabulary entry. */
  lemma AllowedIsSmall(v: int, p: nat)
    requires p < |Numbers| && Allowed(v, p)
    ensures IsSmallTile(v)
  {
  }

  /** Two tiles allowed in play merge into a value a move may write. */
  lemma MergeOfAllowedTiles(a: int, b: int, p: nat)
    requires p < |Numbers| && Allowed(a, p) && Allowed(b, p)
    requires PairRuleOf(a, b).Merge?
    ensures Reached(PairRuleOf(a, b).sum, p)
  {
    AllowedIsSmall(a, p);
    AllowedIsSmall(b, p);
    MergeOfSmallTiles(a, b);
    var i := IndexOf(a).value;
    var j := IndexOf(b).value;
    var k := (if i < j then j else i) + 1;
    IndexOfEntry(k);
  }

  /**
   The merge pass from pair `i` on, over allowed cells from `i` on and
   reachable cells before it, succeeds and writes reachable cells only.
   */
  lemma {:induction false} CombineReaches(cur: seq<int>, i: nat, p: nat)
    requires p < |Numbers| && i <= |cur|
    requires forall k :: i <= k < |cur| ==> Allowed(cur[k], p)
    requires forall k :: 0 <= k < i ==> Reached(cur[k], p)
    ensures CombineFrom(cur, i).Some? && LineReached(CombineFrom(cur, i).value.line, p)
    decreases |cur| - i
  {
    if i + 1 < |cur| {
      match PairRuleOf(cur[i], cur[i + 1])
      case Keep =>
        CombineReaches(cur, i + 1, p);
      case Merge(v) =>
        MergeOfAllowedTiles(cur[i], cur[i + 1], p);
        CombineReaches(cur[i := v][i + 1 := 0], i + 1, p);
    }
  }

  /** Stacking only reorders the cells, so it keeps both line properties. */
  lemma StackKeepsPlay(line: seq<int>, p: nat)
    requires |line| >= 1
    ensures LineAllowed(line, p) ==> LineAllowed(Stack(line), p)
    ensures LineReached(line, p) ==> LineReached(Stack(line), p)
  {
    var s := Stack(line);
    StackPermutes(line);
    forall k | 0 <= k < |s| ensures s[k] in multiset(line) {
      assert s[k] in multiset(s);
    }
    forall k | 0 <= k < |s| ensures exists m :: 0 <= m < |line| && line[m] == s[k] {
      assert s[k] in line;
    }
  }

  /** A line move over allowed cells succeeds and writes reachable cells only. */
  lemma MoveLineReaches(line: seq<int>, flip: bool, p: nat)
    requires |line| >= 1 && p < |Numbers| && LineAllowed(line, p)
    ensures MoveLine(line, flip).Some? && LineReached(MoveLine(line, flip).value.line, p)
  {
    var o := Orient(line, flip);
    assert LineAllowed(o, p);
    var s := Stack(o);
    StackKeepsPlay(o, p);
    CombineReaches(s, 0, p);
    var c := Combine(s).value;
    StackKeepsPlay(c.line, p);
    var t := Stack(c.line);
    assert LineReached(Orient(t, flip), p);
  }

  // ---------------------------------------------------------------------
  // The grid and the game
  // ---------------------------------------------------------------------

  /** A move of a grid of allowed tiles succeeds and leaves reachable values only. */
  lemma MoveGridReaches(g: seq<seq<int>>, d: Direction, p: nat)
    requires IsGrid(g) && p < |Numbers| && GridAllowed(g, p)
    ensures MoveGrid(g, d).Some? && GridReached(MoveGrid(g, d).value.grid, p)
  {
    MoveGridByLines(g, d);
    forall i | 0 <= i < |g|
      ensures MoveLine(LineOf(g, d, i), Flips(d)).Some?
      ensures LineReached(MoveLine(LineOf(g, d, i), Flips(d)).value.line, p)
    {
      var line := LineOf(g, d, i);
      forall j | 0 <= j < |line| ensures Allowed(line[j], p) {
        assert line[j] == CellOf(g, d, i, j);
      }
      MoveLineReaches(line, Flips(d), p);
    }
    var r := MoveGrid(g, d).value.grid;
    forall x, y | 0 <= x < |r| && 0 <= y < |r[x]| ensures Reached(r[x][y], p) {
      if Vertical(d) {
        assert r[x][y] == CellOf(r, d, x, y);
      } else {
        assert r[x][y] == CellOf(r, d, y, x);
      }
    }
  }

  /** A fresh game is in play: its grid is empty and its winning tile is a vocabulary entry. */
  lemma NewGameStartsInPlay(n: nat, numNumbers: int)
    requires n >= 1 && NewGame(n, numNumbers).Some?
    ensures InPlay(NewGame(n, numNumbers).value)
  {
    var game := NewGame(n, numNumbers).value;
    var k := if numNumbers > |Numbers| then |Numbers| else numNumbers;
    var numbers := SlicePrefix(Numbers, k);
    assert numbers[|numbers| - 1] == Numbers[|numbers| - 1];
    IndexOfEntry(|numbers| - 1);
  }

  /** The tiles of a game in play are vocabulary tiles, none of them the last entry. */
  lemma InPlayHasSmallTiles(game: ThreesGame)
    requires InPlay(game)
    ensures GridSmallTiles(game.grid) && GridTiles(game.grid)
  {
    var g := game.grid;
    var p := IndexOf(game.maxValue).value;
    IndexOfFindsPosition(game.maxValue);
    forall x | 0 <= x < |g| ensures AllSmallTiles(g[x]) && AllTiles(g[x]) {
      forall k | 0 <= k < |g[x]| ensures IsSmallTile(g[x][k]) {
        AllowedIsSmall(g[x][k], p);
      }
    }
  }

  /**
   A tile placement that lets play go on leaves the game in play: the new
   1 or 2 is reachable, and since the winning tile is not on the grid,
   every tile lies below it, or is a 2 when it is 1.
   */
  lemma AddTileKeepsPlay(game: ThreesGame, pick: nat, two: bool)
    requires IsGrid(game.grid) && IndexOf(game.maxValue).Some?
    requires GridReached(game.grid, IndexOf(game.maxValue).value)
    ensures AddTile(game, pick, two).outcome.Continue? ==> InPlay(AddTile(game, pick, two).state)
  {
    var s := AddTile(game, pick, two);
    if s.outcome.Continue? {
      var p := IndexOf(game.maxValue).value;
      IndexOfFindsPosition(game.maxValue);
      var c := Chosen(game.grid, pick);
      var g := Place(game.grid, c, NewTileValue(two));
      AddTilePlaces(game, pick, two);
      GridContainsIff(g, game.maxValue);
      forall x, y | 0 <= x < |g| && 0 <= y < |g[x]| ensures Allowed(g[x][y], p) {
        IndexOfFindsPosition(g[x][y]);
        if x == c.col && y == c.row {
          assert g[x][y] == NewTileValue(two);
        } else {
          assert g[x][y] == game.grid[x][y];
        }
      }
    }
  }

  /** A move that changes the grid hands the game, in play or not, to the tile placement. */
  lemma MoveChangeKeepsPlay(game: ThreesGame, d: Direction, pick: nat, two: bool)
    requires IsGrid(game.grid) && MoveGrid(game.grid, d).Some? && !Stays(game.grid, d)
    requires var added := AddTile(game.(grid := MoveGrid(game.grid, d).value.grid), pick, two);
      added.outcome.Continue? ==> InPlay(added.state)
    ensures Move(game, d, pick, two).outcome.Continue? ==> InPlay(Move(game, d, pick, two).state)
  {
    MoveDelegates(game, d, pick, two);
  }

  /** A move that returns normally leaves a game in play in play. */
  lemma MoveKeepsPlay(game: ThreesGame, d: Direction, pick: nat, two: bool)
    requires InPlay(game)
    ensures var s := Move(game, d, pick, two);
      (s.outcome.Continue? || s.outcome.Unchanged?) ==> InPlay(s.state)
  {
    var p := IndexOf(game.maxValue).value;
    IndexOfFindsPosition(game.maxValue);
    MoveGridReaches(game.grid, d, p);
    var m := MoveGrid(game.grid, d).value;
    if m.grid == game.grid {
      assert Move(game, d, pick, two) == Step(game, Unchanged);
    } else {
      var moved := game.(grid := m.grid);
      AddTileKeepsPlay(moved, pick, two);
      MoveChangeKeepsPlay(game, d, pick, two);
      AddTileNeverUnchanged(moved, pick, two);
      MoveDelegates(game, d, pick, two);
    }
  }

  /** A move of a game in play never meets a lookup failure. */
  lemma InPlayNeverFaults(game: ThreesGame, d: Direction, pick: nat, two: bool)
    requires InPlay(game)
    ensures !Move(game, d, pick, two).outcome.Fault?
  {
    InPlayHasSmallTiles(game);
    MoveNeverFaultsOnSmallTiles(game, d, pick, two);
  }

  /** `initialize` on a game in play never faults and, when play goes on, keeps it in play. */
  lemma InitializeKeepsPlay(game: ThreesGame, pick1: nat, two1: bool, pick2: nat, two2: bool)
    requires InPlay(game)
    ensures var s := Initialize(game, pick1, two1, pick2, two2);
      !s.outcome.Fault? && (s.outcome.Continue? ==> InPlay(s.state))
  {
    InPlayHasSmallTiles(game);
    AddTileKeepsPlay(game, pick1, two1);
    AddTileNeverFaultsOnTiles(game, pick1, two1);
    var first := AddTile(game, pick1, two1);
    if first.outcome.Continue? {
      InPlayHasSmallTiles(first.state);
      AddTileKeepsPlay(first.state, pick2, two2);
      AddTileNeverFaultsOnTiles(first.state, pick2, two2);
    }
  }

  /**
   The engine itself plays on after a win: in a game whose winning tile 3
   is already on the grid `[[3, 2], [0, 0]]`, finished or not, moving Up
   merges the 3 with the 2 and play continues with a 5 on the grid, above
   the winning tile.
   */
  lemma PlayGoesOnAfterWin(game: ThreesGame)
    requires game.grid == [[3, 2], [0, 0]] && game.maxValue == 3
    ensures GameWon(game)
    ensures IsGrid(game.grid) && Move(game, Up, 0, false).outcome.Continue?
    ensures Move(game, Up, 0, false).state.grid == [[5, 1], [0, 0]] && !InPlay(Move(game, Up, 0, false).state)
  {
    assert GameWon(game) by {
      GridContainsIff(game.grid, 3);
      assert game.grid[0][0] == 3;
    }
    var moved := ThreeTwoMovesUp(game.grid);
    var next := game.(grid := moved);
    PlacementAfterWinState(next);
    PlacementAfterWinContinues(next);
    MoveDelegates(game, Up, 0, false);
    AboveWinningTile(Move(game, Up, 0, false).state);
  }

  /** A 5 on the grid of a game whose winning tile is 3 is out of bound. */
  lemma AboveWinningTile(game: ThreesGame)
    requires |game.grid| >= 1 && |game.grid[0]| >= 1 && game.grid[0][0] == 5 && game.maxValue == 3
    ensures !InPlay(game)
  {
    IndexOfEntry(2);
    IndexOfEntry(3);
  }

  /** A tile placement on `[[5, 0], [0, 0]]` with winning tile 3 writes a 1 at the first empty cell. */
  lemma PlacementAfterWinState(game: ThreesGame)
    requires game.grid == [[5, 0], [0, 0]] && game.maxValue == 3
    ensures IsGrid(game.grid) && |EmptyCells(game.grid)| > 0
    ensures AddTile(game, 0, false).state.grid == [[5, 1], [0, 0]] && AddTile(game, 0, false).state.maxValue == 3
  {
    var g := game.grid;
    assert Rect(g, 2);
    assert EmptyCells(g)[0] == Cell(0, 1) by {
      assert ColumnEmpties(g[0], 0, 1) == [];
      assert ColumnEmpties(g[0], 0, 2) == [Cell(0, 1)];
      assert EmptyCellsUpTo(g, 1) == [Cell(0, 1)];
    }
    AddTilePlacesOneTile(game, 0, false);
    assert Chosen(game.grid, 0) == Cell(0, 1);
    var r := AddTile(game, 0, false).state.grid;
    assert r[0][0] == 5 && r[0][1] == 1 && r[1][0] == 0 && r[1][1] == 0;
    assert r[0] == [5, 1] && r[1] == [0, 0];
  }

  /** That placement lets play go on: the grid is not won, and moving Right changes it. */
  lemma PlacementAfterWinContinues(game: ThreesGame)
    requires game.grid == [[5, 0], [0, 0]] && game.maxValue == 3
    requires IsGrid(game.grid) && AddTile(game, 0, false).state.grid == [[5, 1], [0, 0]]
    ensures AddTile(game, 0, false).outcome.Continue?
  {
    var placed := AddTile(game, 0, false).state.grid;
    assert HasEmpty(game.grid) by {
      assert game.grid[0][1] == 0;
    }
    AddTileOutcome(game, 0, false);
    assert GridTiles(game.grid) by {
      assert AllTiles(game.grid[0]) && AllTiles(game.grid[1]);
    }
    AddTileNeverFaultsOnTiles(game, 0, false);
    PlacedPlaysOn(placed);
  }

  /** The grid `[[5, 1], [0, 0]]` is not won for winning tile 3, and moving Right changes it. */
  lemma PlacedPlaysOn(g: seq<seq<int>>)
    requires g == [[5, 1], [0, 0]]
    ensures IsGrid(g) && !GridContains(g, 3) && !Stays(g, Right)
  {
    GridContainsIff(g, 3);
    PlacedMoveSucceeds(g);
    PlacedMoveShiftsFive(g);
  }

  /** The column `[3, 2]` moved Up: the 3 and the 2 merge into a 5. */
  lemma ThreeTwoMergesUp()
    ensures MoveLine([3, 2], false) == Some(Combined([5, 0], 5))
  {
    assert Stack([3, 2]) == [3, 2] by {
      assert [3, 2][1..] == [2];
    }
    assert PairRuleOf(3, 2) == Merge(5) by {
      assert IndexOf(3) == Some(2) && IndexOf(2) == Some(1);
    }
    assert [3, 2][0 := 5][1 := 0] == [5, 0];
    assert CombineFrom([5, 0], 1) == Some(Combined([5, 0], 0));
    assert Combine([3, 2]) == Some(Combined([5, 0], 5));
    assert Stack([5, 0]) == [5, 0] by {
      assert [5, 0][1..] == [0];
    }
    assert Slide([3, 2]) == Some(Combined([5, 0], 5));
  }

  /** The row `[5, 0]` moved Right: the 5 slides to the end. */
  lemma FiveSlidesRight()
    ensures MoveLine([5, 0], true) == Some(Combined([0, 5], 0))
  {
    assert Reverse([5, 0]) == [0, 5];
    assert Stack([0, 5]) == [5, 0] by {
      assert [0, 5][1..] == [5];
      assert Stack([5]) == [5];
    }
    assert PairRuleOf(5, 0) == Keep;
    assert CombineFrom([5, 0], 1) == Some(Combined([5, 0], 0));
    assert Combine([5, 0]) == Some(Combined([5, 0], 0));
    assert Stack([5, 0]) == [5, 0] by {
      assert [5, 0][1..] == [0];
    }
    assert Slide([0, 5]) == Some(Combined([5, 0], 0));
  }

  /** The grid `[[3, 2], [0, 0]]` moved Up: the 3 and the 2 merge. */
  lemma ThreeTwoMovesUp(g: seq<seq<int>>) returns (moved: seq<seq<int>>)
    requires g == [[3, 2], [0, 0]]
    ensures IsGrid(g) && MoveGrid(g, Up).Some?
    ensures moved == MoveGrid(g, Up).value.grid && moved == [[5, 0], [0, 0]]
  {
    assert Rect(g, 2);
    ThreeTwoMergesUp();
    EmptyLineMovesUp();
    assert MoveGrid(g, Up) == MoveLines(g, |g|, LineMove(false));
    MoveLinesLinewise(g, |g|, LineMove(false));
    var r := MoveGrid(g, Up).value.grid;
    assert r[0] == [5, 0] && r[1] == [0, 0];
    moved := r;
  }

  /** Moving `[[5, 1], [0, 0]]` Right succeeds. */
  lemma PlacedMoveSucceeds(g: seq<seq<int>>)
    requires g == [[5, 1], [0, 0]]
    ensures IsGrid(g) && MoveGrid(g, Right).Some?
  {
    assert Rect(g, 2);
    assert GridTiles(g) by {
      assert AllTiles(g[0]) && AllTiles(g[1]);
    }
    MoveGridOnTiles(g, Right);
  }

  /** Moving `[[5, 1], [0, 0]]` Right takes the 5 from the front of its row. */
  lemma PlacedMoveShiftsFive(g: seq<seq<int>>)
    requires g == [[5, 1], [0, 0]] && IsGrid(g) && MoveGrid(g, Right).Some?
    ensures MoveGrid(g, Right).value.grid[0][0] == 0
  {
    var t := Transpose(g);
    assert t[0] == [5, 0] by {
      assert t[0][0] == g[0][0] && t[0][1] == g[1][0];
    }
    FiveSlidesRight();
    TransposedMoveIsMoveLines(g, Right);
    MoveLinesLinewise(t, |g|, LineMove(true));
    assert CellOf(MoveGrid(g, Right).value.grid, Right, 0, 0) == 0;
  }

  // ---------------------------------------------------------------------
  // A session of moves
  // ---------------------------------------------------------------------

  /** One call of `move`, with the random choices of its tile placement. */
  datatype Turn = Turn(d: Direction, pick: nat, two: bool)

  /**
   The outcomes of a caller playing `turns` one `move` at a time, stopping
   at once after the first call that raises.
   */
  function Session(game: ThreesGame, turns: seq<Turn>): (r: seq<Outcome>)
    requires IsGrid(game.grid)
    ensures |r| <= |turns|
    ensures forall k :: 0 <= k < |r| - 1 ==> r[k].Continue? || r[k].Unchanged?
    decreases |turns|
  {
    if |turns| == 0 then []
    else
      var s := Move(game, turns[0].d, turns[0].pick, turns[0].two);
      if s.outcome.Continue? || s.outcome.Unchanged? then [s.outcome] + Session(s.state, turns[1..])
      else [s.outcome]
  }

  /** No move of a session started in play meets a lookup failure. */
  lemma {:induction false} SessionNeverFaults(game: ThreesGame, turns: seq<Turn>)
    requires InPlay(game)
    ensures forall k :: 0 <= k < |Session(game, turns)| ==> !Session(game, turns)[k].Fault?
    decreases |turns|
  {
    if |turns| > 0 {
      var t := turns[0];
      var s := Move(game, t.d, t.pick, t.two);
      InPlayNeverFaults(game, t.d, t.pick, t.two);
      if s.outcome.Continue? || s.outcome.Unchanged? {
        MoveKeepsPlay(game, t.d, t.pick, t.two);
        SessionNeverFaults(s.state, turns[1..]);
      }
    }
  }

  /**
   A game built by the constructor, initialized and then played move by
   move by a caller that stops at once at the first exception never meets
   the lookup failure, whatever its size, vocabulary length and random
   choices. Moves after a win are not covered (`PlayGoesOnAfterWin`).
   */
  lemma NewGameNeverFaults(n: nat, numNumbers: int, pick1: nat, two1: bool, pick2: nat, two2: bool, turns: seq<Turn>)
    requires n >= 1 && NewGame(n, numNumbers).Some?
    ensures var init := Initialize(NewGame(n, numNumbers).value, pick1, two1, pick2, two2);
      !init.outcome.Fault? &&
      (init.outcome.Continue? ==>
         forall k :: 0 <= k < |Session(init.state, turns)| ==> !Session(init.state, turns)[k].Fault?)
  {
    var game := NewGame(n, numNumbers).value;
    NewGameStartsInPlay(n, numNumbers);
    InitializeKeepsPlay(game, pick1, two1, pick2, two2);
    var init := Initialize(game, pick1, two1, pick2, two2);
    if init.outcome.Continue? {
      SessionNeverFaults(init.state, turns);
    }
  }
}

=== FILE: sums.dfy ===
/**
 Sums of integer sequences, and the facts about them that the line and
 grid proofs use: a sum splits over concatenation, ignores the order of
 the elements, tracks single-cell updates and is monotone.
 */
module Sums {

  /** The sum of the elements of `s`, taken from the back. */
  function Sum(s: seq<int>): int {
    if |s| == 0 then 0 else Sum(s[..|s| - 1]) + s[|s| - 1]
  }

  lemma {:induction false} SumConcat(a: seq<int>, b: seq<int>)
    ensures Sum(a + b) == Sum(a) + Sum(b)
    decreases |b|
  {
    if |b| == 0 {
      assert a + b == a;
    } else {
      assert (a + b)[..|a + b| - 1] == a + b[..|b| - 1];
      SumConcat(a, b[..|b| - 1]);
    }
  }

  lemma SumCons(x: int, s: seq<int>)
    ensures Sum([x] + s) == x + Sum(s)
  {
    SumConcat([x], s);
    assert [x][..0] == [];
  }

  lemma MultisetRemoveAt(b: seq<int>, k: nat)
    requires k < |b|
    ensures multiset(b[..k] + b[k + 1..]) == multiset(b) - multiset{b[k]}
  {
    assert b == b[..k] + [b[k]] + b[k + 1..];
    assert multiset(b) == multiset(b[..k]) + multiset{b[k]} + multiset(b[k + 1..]);
  }

  lemma SumRemoveAt(b: seq<int>, k: nat)
    requires k < |b|
    ensures Sum(b) == b[k] + Sum(b[..k] + b[k + 1..])
  {
    assert b == b[..k] + ([b[k]] + b[k + 1..]);
    SumConcat(b[..k], [b[k]] + b[k + 1..]);
    SumCons(b[k], b[k + 1..]);
    SumConcat(b[..k], b[k + 1..]);
  }

  /** Reordering the elements does not change the sum. */
  lemma {:induction false} SumOfPermutation(a: seq<int>, b: seq<int>)
    requires multiset(a) == multiset(b)
    ensures Sum(a) == Sum(b)
    decreases |a|
  {
    if |a| == 0 {
      assert |b| == |multiset(b)| == 0;
    } else {
      assert a[0] in multiset(b);
      var k :| 0 <= k < |b| && b[k] == a[0];
      MultisetRemoveAt(b, k);
      SumRemoveAt(b, k);
      MultisetRemoveAt(a, 0);
      SumRemoveAt(a, 0);
      assert a[..0] + a[1..] == a[1..];
      SumOfPermutation(a[1..], b[..k] + b[k + 1..]);
    }
  }

  /** Overwriting one element changes the sum by the difference. */
  lemma SumUpdate(s: seq<int>, i: nat, v: int)
    requires i < |s|
    ensures Sum(s[i := v]) == Sum(s) - s[i] + v
  {
    assert s == s[..i] + [s[i]] + s[i + 1..];
    assert s[i := v] == s[..i] + [v] + s[i + 1..];
    SumConcat(s[..i] + [s[i]], s[i + 1..]);
    SumConcat(s[..i] + [v], s[i + 1..]);
    SumConcat(s[..i], [s[i]]);
    SumConcat(s[..i], [v]);
  }

  /** Elementwise `a[k] <= b[k]` bounds the sums the same way. */
  lemma {:induction false} SumMonotone(a: seq<int>, b: seq<int>)
    requires |a| == |b|
    requires forall k :: 0 <= k < |a| ==> a[k] <= b[k]
    ensures Sum(a) <= Sum(b)
    decreases |a|
  {
    if |a| > 0 {
      SumMonotone(a[..|a| - 1], b[..|b| - 1]);
    }
  }

  /** A sequence of zeros sums to zero. */
  lemma {:induction false} SumOfZeros(s: seq<int>)
    requires forall k :: 0 <= k < |s| ==> s[k] == 0
    ensures Sum(s) == 0
    decreases |s|
  {
    if |s| > 0 {
      SumOfZeros(s[..|s| - 1]);
    }
  }
}

=== FILE: vocabulary.dfy ===
/**
 The tile vocabulary of the game and the rule deciding whether two
 neighbouring tiles merge (the pair test inside `combine_col`).

 The rule looks tiles up in the class-level list `ThreesGame.numbers`,
 which always has all seventeen entries, whatever the per-game vocabulary
 length is. A tile that is not in that list makes the lookup fail; the
 model reports that as the `BadTile` verdict instead of an exception.
 */
module Vocabulary {
  import opened Options

  /** The class-level list of tile values, a Fibonacci-like progression. */
  const Numbers: seq<int> := [1, 2, 3, 5, 8, 13, 21, 34, 55, 89, 144, 233, 377, 610, 987, 1597, 2584]

  /** A cell value the merge rule can look up: empty, or a vocabulary entry. */
  predicate IsTile(v: int) {
    v == 0 || IndexOf(v).Some?
  }

  /** A cell value whose merges stay inside the vocabulary: empty, or any entry but the last. */
  predicate IsSmallTile(v: int) {
    v == 0 || (IndexOf(v).Some? && IndexOf(v).value < |Numbers| - 1)
  }

  /** `a` and `b` are the vocabulary entries at positions `p` and `p + 1`. */
  predicate ConsecutiveAt(a: int, b: int, p: nat) {
    p + 1 < |Numbers| && Numbers[p] == a && Numbers[p + 1] == b
  }

  lemma NumbersIncrease()
    ensures forall i :: 0 <= i < |Numbers| - 1 ==> 0 < Numbers[i] < Numbers[i + 1]
  {
  }

  /** The vocabulary is strictly increasing, so every value occurs at most once. */
  lemma {:induction false} NumbersStrictlyIncrease(i: nat, j: nat)
    requires i < j < |Numbers|
    ensures 0 < Numbers[i] < Numbers[j]
    decreases j - i
  {
    NumbersIncrease();
    if i + 1 < j {
      NumbersStrictlyIncrease(i + 1, j);
    }
  }

  /** Each entry from the third on is the sum of the two before it. */
  lemma FibonacciClosure(i: nat)
    requires i + 2 < |Numbers|
    ensures Numbers[i] + Numbers[i + 1] == Numbers[i + 2]
  {
  }

  /**
   `numbers.index(v)`: the position of `v` in `Numbers`, or None where
   Python raises ValueError. Written as a table so that the verifier does
   not have to search the sequence; `IndexOfFindsPosition` ties it to it.
   */
  function IndexOf(v: int): Option<nat> {
    match v
    case 1 => Some(0)
    case 2 => Some(1)
    case 3 => Some(2)
    case 5 => Some(3)
    case 8 => Some(4)
    case 13 => Some(5)
    case 21 => Some(6)
    case 34 => Some(7)
    case 55 => Some(8)
    case 89 => Some(9)
    case 144 => Some(10)
    case 233 => Some(11)
    case 377 => Some(12)
    case 610 => Some(13)
    case 987 => Some(14)
    case 1597 => Some(15)
    case 2584 => Some(16)
    case _ => None
  }

  /** The lookup finds exactly the position of `v` in the vocabulary. */
  lemma IndexOfFindsPosition(v: int)
    ensures IndexOf(v).Some? ==> IndexOf(v).value < |Numbers| && Numbers[IndexOf(v).value] == v
    ensures IndexOf(v).None? ==> forall i :: 0 <= i < |Numbers| ==> Numbers[i] != v
    ensures IndexOf(v).Some? <==> v in Numbers
  {
  }

  /** Looking up a vocabulary entry finds its own position. */
  lemma IndexOfEntry(p: nat)
    requires p < |Numbers|
    ensures IndexOf(Numbers[p]) == Some(p)
  {
  }

  /** What one step of the merge pass does with the pair (a, b). */
  datatype PairRule =
    | Keep             // no merge: a zero in the pair, or incompatible tiles
    | Merge(sum: int)  // the left cell becomes `sum`, the right one becomes empty
    | BadTile          // a lookup in the vocabulary fails

  /** The pair test of `combine_col` for the pair (a, b). */
  function PairRuleOf(a: int, b: int): (r: PairRule)
    ensures r.BadTile? <==> a != 0 && b != 0 && (!IsTile(a) || !IsTile(b))
    ensures r.Merge? ==> IndexOf(a).Some? && IndexOf(b).Some? && r.sum == a + b
    ensures a == 0 || b == 0 ==> r == Keep
  {
    if a == 0 || b == 0 then Keep
    else match (IndexOf(a), IndexOf(b))
      case (Some(i), Some(j)) =>
        if i == 0 && j == 0 then Merge(2)
        else if i - j == 1 || j - i == 1 then Merge(a + b)
        else Keep
      case _ => BadTile
  }

  /** Two 1s merge into 2. */
  lemma OnesMerge()
    ensures PairRuleOf(1, 1) == Merge(2)
  {
  }

  /** Consecutive vocabulary entries merge, in either order, into their sum. */
  lemma ConsecutiveTilesMerge(a: int, b: int, p: nat)
    requires ConsecutiveAt(a, b, p)
    ensures PairRuleOf(a, b) == Merge(a + b)
    ensures PairRuleOf(b, a) == Merge(a + b)
  {
    IndexOfEntry(p);
    IndexOfEntry(p + 1);
    NumbersIncrease();
  }

  /**
   Only two 1s or two consecutive entries merge; `p` locates the pair in
   the vocabulary.
   */
  lemma MergingTilesAreConsecutive(a: int, b: int) returns (p: nat)
    requires PairRuleOf(a, b).Merge?
    ensures (a == 1 && b == 1) || ConsecutiveAt(a, b, p) || ConsecutiveAt(b, a, p)
  {
    IndexOfFindsPosition(a);
    IndexOfFindsPosition(b);
    var i := IndexOf(a).value;
    var j := IndexOf(b).value;
    if i == 0 && j == 0 {
      p := 0;
    } else if i + 1 == j {
      p := i;
    } else {
      p := j;
    }
  }

  /** Equal tiles other than 1 never merge. */
  lemma EqualTilesMergeOnlyAsOnes(a: int)
    requires a != 1
    ensures !PairRuleOf(a, a).Merge?
  {
  }

  /**
   Merging two tiles that are not the last vocabulary entry produces the
   vocabulary entry after the larger of the two.
   */
  lemma MergeOfSmallTiles(a: int, b: int)
    requires IsSmallTile(a) && IsSmallTile(b)
    requires PairRuleOf(a, b).Merge?
    ensures var i := IndexOf(a).value; var j := IndexOf(b).value;
      PairRuleOf(a, b).sum == Numbers[(if i < j then j else i) + 1]
    ensures IsTile(PairRuleOf(a, b).sum)
  {
    IndexOfFindsPosition(a);
    IndexOfFindsPosition(b);
    var i := IndexOf(a).value;
    var j := IndexOf(b).value;
    var k := if i == 0 && j == 0 then 1 else if i < j then i + 2 else j + 2;
    if i != 0 || j != 0 {
      FibonacciClosure(k - 2);
    }
    assert Numbers[k] == PairRuleOf(a, b).sum;
    IndexOfEntry(k);
  }

  /** The one merge that leaves the vocabulary: its last two entries. */
  lemma LastEntriesMergeOutside()
    ensures PairRuleOf(1597, 2584) == Merge(4181)
    ensures !IsTile(4181)
  {
  }
}
